=== FILE: README.md ===
# Avantee's Romantic Adventure — a Dafny model of the story engine and the request router

This project models the two pieces of logic the web application is built on.

- **The story engine.** This is the class `RomanticAdventure` in `script.js`, without its DOM side. It loads and validates a story document of scenes, choices, endings and rewards. It then moves a player through that graph: starting, loading scenes, resolving choices, showing endings with their rewards, restarting and going home. Along the way it keeps a scene history, a loading flag and a telemetry choice counter.
- **The request router.** This is `SimpleRouter` in `api.js`. It decides between static files and API routes, maps file names to content types, and applies the defaults the route handlers give to missing request fields.

Everything is a pure function over immutable datatypes.

- The engine's fields form one `NavState` record (`navigation.dfy`).
- Each operation is a step function from state to state.
- `Dispatch` and `Run` feed the operations a sequence of events.

The asynchronous parts are broken at their `await`s:

- `loadScene` is split in two. `BeginLoadScene` covers the guard, the lookup and the history update. `SettleLoad` is the display after the 100 ms pause.
- A choice is split into `SelectChoice` (the click) and `ResolveChoice`/`Navigate` (what runs once tracking and the 200 ms pause are over).

Timers become events, and network and file-system outcomes become inputs. Lookups are first-match linear searches (`Basics.Find`), as the code's `Array.prototype.find` is.

Files:

- `basics.dfy`: `Option`, `Find`.
- `text.dfy`: `includes`, `trim`, `split('\n')`, decimal rendering.
- `js.dfy`: JSON values, truthiness, `||`, property access.
- `story.dfy`: the document.
- `validation.dfy`: `validateStoryData`.
- `diagnostics.dfy`: `getDetailedErrorMessage`.
- `format.dfy`: `formatStoryText`.
- `rewards.dfy`: `displayRewards`.
- `navigation.dfy`: the engine.
- `scenarios.dfy`: concrete play-throughs.
- `router.dfy`: `api.js`.
- `wire.dfy`: the choice report as the server receives it.

Some behaviours of the code may surprise a reader. The model follows the code in each. The last two go against the code's own comments: "Prevent multiple rapid clicks" at script.js:497-499, and "Load story data if not already loaded" at script.js:247, although a rejected document was never really loaded.

- **History at an ending.** A story A → B → ending ends with history `[A]`, not `[A, B]`. Reaching an ending never appends to history (`Scenarios.PlayThrough`).
- **Lookups.** Lookups are linear scans, and the first match wins. No id index is built.
- **Start scenes.** Any number of start scenes is accepted, and the first in document order is used. Duplicate ids are not rejected either.
- **Empty scene list.** An empty `scenes` array passes the array check and is rejected only for lacking a start scene.
- **Choices during a transition.** These are not all rejected. `handleChoiceSelection` never sets `loading`. Only the clicked button is disabled, and only for its first 150 ms. So clicks on other choice buttons during tracking and the pause are accepted and counted, and so is a second click on the same button once those 150 ms are over. Only the scene load begun by the first click turns later navigations away (`Scenarios.DoubleClickCountedTwiceEnteredOnce`).
- **Rejected documents stay cached.** A document that validation rejects stays in `storyData`, because it is stored before it is validated. The next start then skips the fetch. This is why the top-level document fields are modelled as `Field = Absent | NotArray | Items`.

## Model

| member | source | states |
|---|---|---|
| Basics.Find | script.js:327 | the result is the first element satisfying the predicate, and it is absent exactly when none does |
| Story.StartScene | script.js:262 | the start scene is the first scene flagged `isStart` in document order; there is none exactly when no scene is flagged |
| Story.SceneById | script.js:327 | a found scene is in the list and carries the id, and no earlier scene carries it (the first match wins when ids repeat); nothing is found exactly when no scene has it |
| Story.EndingById | script.js:598 | a found ending is in the list and carries the id, and no earlier ending carries it; nothing is found exactly when no ending has it |
| Story.RewardById | script.js:637 | a found reward is in the list and carries the id, and no earlier reward carries it; nothing is found exactly when no reward has it |
| Text.Includes | script.js:226-234 | `includes` is true exactly when the needle occurs at some index of the string |
| Text.Decimal | script.js:148 | the rendering of a natural number is a non-empty digit string without a leading zero that parses back to the number |
| Text.Trim | script.js:412 | the trimmed string occurs in the original with only whitespace before and after it, has no whitespace at either end, and is empty exactly when the original is all whitespace |
| Text.SplitLines | script.js:411 | splitting at line feeds gives at least one part, no part contains a line feed, and joining the parts with line feeds gives back the text |
| Text.SplitAppendLine | script.js:411 | appending a line feed and a line to a text appends exactly that line to its split |
| Js.Or | api.js:145 | `a \|\| b` is `a` when `a` is truthy and `b` otherwise, and is truthy exactly when either operand is |
| Js.Get | api.js:123 | reading an own data field of a parsed body throws exactly on `null` and `undefined`; a field the object has reads as its value, and one it lacks reads as `undefined` |
| Validation.Validate | script.js:179-200 | each rejection happens exactly when every earlier check passed and its own check fails: missing document, then scenes, endings and rewards arrays, then no start scene; an accepted document has all three arrays and carries the warnings list |
| Validation.AcceptedIffStartExists | script.js:196-199 | a document with all three arrays is accepted if and only if some scene is flagged as a start |
| Validation.WarningsAreExactlyDanglingReferences | script.js:202-215 | a warning is logged if and only if some scene with that id has, at that choice index, a choice whose next scene or ending id is given and not defined in the document |
| Diagnostics.Diagnose | script.js:225-239 | the four message kinds are tested in order: a TypeError mentioning fetch, then any message containing 404, then JSON, each case exactly when all earlier ones fail |
| Diagnostics.DetailedErrorMessage | script.js:225-239 | an unreachable server, a missing file and a corrupted file each get their own fixed text; the generic text is exactly the fixed prefix, the error's own message and the fixed suffix |
| Diagnostics.MessagesIdentifyDiagnosis | script.js:225-239 | equal messages come from the same kind, and two equal generic messages quote the same error message |
| Format.Paragraphs | script.js:412-413 | there are no more paragraphs than lines, every paragraph is non-empty without whitespace at its ends, and there are none exactly when every line is blank |
| Format.FormatStoryText | script.js:409-416 | the HTML is empty exactly when the text is all whitespace |
| Format.FormatAppendLine | script.js:409-416 | adding a line adds one `<p>` element holding it trimmed and emphasised when it is not blank, and nothing when it is: one paragraph per non-blank line, in order |
| Format.FormatSingleLine | script.js:409-416 | a text without line feeds gives one paragraph, or none when it is blank |
| Rewards.KnownRewards | script.js:636-641 | there are at most as many offered rewards as listed ids, and each offered reward is in the document with a listed id |
| Rewards.DefaultRewards | script.js:645-652 | a reward is offered exactly when it is in the document and flagged `isDefault` |
| Rewards.SelectRewards | script.js:633-653 | a non-empty id list offers exactly the known rewards of the list, in list order, and never falls back to the defaults; an empty list offers exactly the default rewards, in document order |
| Rewards.AllKnownIdsAreOffered | script.js:636-641 | when every listed id is known, the offered rewards are, position by position, the first reward carrying each id |
| Rewards.UnknownIdsOfferNothing | script.js:636-652 | a non-empty list of unknown ids offers no reward at all |
| Rewards.KnownRewardsAppend | script.js:636-641 | adding an id to the list appends its reward when known and changes nothing when unknown |
| Rewards.DefaultRewardsAppend | script.js:645-652 | defaults are offered in document order |
| Navigation.LoadStoryData | script.js:136-173 | the load is ignored while loading; it succeeds exactly when the reply is a document that validation accepts; only the document and the page change; a parsed document is kept even when rejected; each failure shows `getDetailedErrorMessage` of its own error: the network or body error itself, the `Error` built from the reply's status, or an `Error` carrying the rejection sentence |
| Navigation.NotFoundReplyMessage | script.js:147-148 | a 404 reply to the story request shows the file-not-found message |
| Navigation.BeginLoadScene | script.js:305-344 | the load is ignored while loading; it goes ahead exactly when the document has a scene with the id; on success the current scene becomes that scene and the previous one is appended to history only when it exists and has a different id; a failure changes only the page, to the error page |
| Navigation.SceneFollowUp | script.js:392-401 | a scene offers its choices exactly when it has a non-empty choice list; otherwise it schedules its ending exactly when it names one; a scene with neither gets nothing |
| Navigation.SettleLoad | script.js:346-371 | after the pause loading is cleared; a scene with choices offers them even when it also names an ending; a scene without choices and with an ending schedules that ending; a scene with neither schedules nothing |
| Navigation.LoadScene | script.js:305-371 | past the guard loading is always clear on exit; a failed load leaves the current scene and history unchanged; a successful one shows the scene with that id and raises the scene number only when the scene changes |
| Navigation.SceneCounterText | script.js:703-706 | the counter reads "Scene " followed by digits only, without a leading zero, that spell the number of history entries plus one |
| Navigation.TrackChoice | script.js:547-575 | the counter moves by one exactly when there is a session id; a report is sent exactly when there is also a current scene, and it carries the new counter value, which is at least 1 |
| Navigation.ShowEnding | script.js:595-627 | only the page changes; a known ending is shown with the rewards its id list selects; an unknown one shows the missing-ending error page |
| Navigation.Navigate | script.js:525-540 | an ending wins over a next scene and leaves history and current scene alone; a known next scene is loaded unless a load is in flight, when nothing happens; an unknown one or a choice with neither target shows the error page |
| Navigation.SelectChoice | script.js:494-523 | a click during a scene load is ignored; otherwise the counter moves when there is a session and the choice joins the pending ones, and nothing else changes |
| Navigation.ResolveChoice | script.js:523-540 | the end of a pause with no choice waiting changes nothing; otherwise exactly that waiting choice leaves the queue, the others keep their order, and the state is what navigating with that choice gives |
| Navigation.HandleChoiceSelection | script.js:494-541 | run without interruption, a choice is ignored while loading; otherwise it moves the counter only with a session, prefers the ending, loads a known next scene, shows the error page otherwise, and leaves loading set only by the scene load it began |
| Navigation.UninterruptedChoice | script.js:494-541 | a click followed directly by the end of its pause is the uninterrupted choice |
| Navigation.InitializeSession | script.js:278-299 | an ok reply sets the session id to the id it carries, even a missing one; a failed or refused request keeps the old id; nothing else changes |
| Navigation.StartStory | script.js:244-273 | the document is fetched only when none is held; a failed load resets nothing; otherwise history and counter are reset and the first start scene in document order is loaded, that very scene when ids are distinct; with no start scene the error page shows |
| Navigation.FirstWithIdIsFound | script.js:327 | looking a scene up by its own id finds a scene with that id, and with distinct ids that very scene |
| Navigation.RestartStory | script.js:711-720 | restarting clears history and current scene even when the reload fails; with a held document it re-enters through `startStory`: the counter resets and the first start scene in document order is loaded onto the story page, or the error page shows when there is none |
| Navigation.GoHome | script.js:725-734 | the homepage shows with history and current scene cleared; counter, session, document and pending work are untouched |
| Navigation.Dispatch | script.js:85-113 | the page's event wiring (these listeners, the choice click at script.js:483-485, and the timers at script.js:393-400 and 523): start runs `startStory`, restart `restartStory`, home `goHome`, a click `SelectChoice`, the end of a pause `ResolveChoice`, the load timer `SettleLoad`, and the oldest ending timer `showEnding`. For every event: loading holds exactly while a load is in flight; a held document is never replaced; the counter steps by one or resets; history is kept, cleared, or grows by the scene being left; a click during a load is ignored; only the load's own timer ends it |
| Navigation.TerminalSceneShowsEnding | script.js:396-400 | a scene without choices but with an ending leads to that ending: once the scene settles, its ending timer shows the same page `showEnding` gives |
| Navigation.RunKeepsStory | script.js:248-251 | once a document is held, no sequence of events replaces it |
| Navigation.LoadingTracksInFlight | script.js:309-316 | from any state where loading is set exactly while a scene load is in flight, every run keeps it so |
| Navigation.LoadingTracksInFlightFromStart | script.js:309-316 | from the constructor's state on, loading is set exactly while a scene load is in flight |
| Navigation.CounterBoundedByChoices | script.js:547-554 | the counter never exceeds its start value plus the number of clicks |
| Scenarios.PlayThrough | script.js:244-541 | starting, choosing B and choosing E1 ends on E1 with its reward, history `[A]` and counter 2 |
| Scenarios.DoubleClickCountedTwiceEnteredOnce | script.js:494-532 | two clicks before the first pause ends are both counted, but scene B is entered once |
| Scenarios.ClickDuringLoadIgnored | script.js:498-501 | a click while a scene loads changes nothing |
| Router.MimeType | api.js:11-17 | the type is the table's entry for a listed extension and `application/octet-stream` exactly for any other |
| Router.StaticFile | api.js:74-77 | the root names `index.html`; any other absolute path names the file the path spells after its leading slash |
| Router.Extname | api.js:78 | the extension is empty or a dot followed by no dot or slash, and it is a suffix of the path without its trailing slashes |
| Router.ExtnameOfStemAndExtension | api.js:78 | a file name made of a stem and an extension, in any directory, has exactly that extension |
| Router.NoDotNoExtension | api.js:78-79 | a file name without a dot has no extension |
| Router.DotFileNoExtension | api.js:78 | a name whose only dot is its first character, such as `.profile`, and the name `..` have no extension |
| Router.RootIsHtml | api.js:75-79 | the root is served as `text/html` |
| Router.ServeStaticFile | api.js:73-93 | a read file is 200 with the content type of its extension; a missing file is 404 "File not found" and any other read error 500 "Server error" |
| Router.RunRoute | api.js:118-211 | every handler answers, with 200 or 500; it is 500 exactly for a database failure or a `null` body in a handler that reads the body |
| Router.RouteIn | api.js:47-70 | an unregistered pathname is 404 "Not found"; a malformed POST body to a registered path is 400 "Invalid JSON" |
| Router.HandleAsWritten | api.js:36-71 | a GET outside `/api/` is served from disk; the handler crashes exactly for methods other than GET and POST |
| Router.Handle | api.js:36-71 | every request is answered; a method other than GET and POST is 404 "Not found" |
| Router.ServeAsWritten | api.js:214-227 | OPTIONS is answered 200 before any routing, and any other method besides GET and POST crashes |
| Router.Serve | api.js:214-227 | every request is answered, OPTIONS with the preflight reply, and GET, POST and OPTIONS exactly as the code does |
| Router.PutCrashes | api.js:47 | a PUT to a registered path gets no reply as written, and 404 once corrected |
| Router.StaticDecision | api.js:42-47 | a GET outside `/api/` goes to the file system whatever routes exist; one inside goes to the GET table |
| Router.WildcardIsLiteral | api.js:204 | the star route matches only its own literal path; other unregistered API paths are 404 |
| Router.SessionNameDefault | api.js:118-136 | a new session is tracked under the posted `playerName` when it is truthy; a missing or falsy name, and an empty body read as `{}`, give "Avantee" |
| Router.ChoiceOrderDefault | api.js:138-151 | a recorded choice keeps a truthy `choiceOrder` as sent, and records 1 for a falsy or missing one, 0 included |
| Router.StatsDefault | api.js:195 | missing statistics are replaced by zero counts |
| Wire.ReportRecordedAsSent | api.js:138-151 | the server records a client choice report exactly as sent, because the client's counter is at least 1 and the fallback to 1 never fires |

## Left out

- The 150 ms disabling of the clicked choice button is not modelled. A `Choose` event stands for a click that reached `handleChoiceSelection`.
- Presentation is not modelled: element updates, `showPage`'s class toggling (the `page` field stands for it), focus management, announcements, the loading indicator, button creation, `downloadReward` and the animation timers. The engine state and its transitions do not depend on them.
- `addEmphasis` is a parameter of `Format.FormatStoryText`. It is a regular-expression rewrite with no bearing on the engine.
- The error page's text is not modelled for faults other than a failed story load. A `Navigation.Fault` names the cause instead of the fixed sentence. The two global handlers (for errors and for unhandled rejections) are not told apart: both show up as `Fault.Uncaught`.
- Network calls are inputs:
  - the `story.json` fetch and its `response.json()` (`FetchOutcome`);
  - the session request (`SessionReply`).
  The telemetry reply is not an input, because no branch reads it. The request timeout and abort are not modelled either.
- Some awaits are collapsed. `startStory` runs atomically across its awaits on the story load and the session request. `loadStoryData`'s own loading flag during the fetch is therefore not observable.
- Record field values are typed, not arbitrary JSON. Ids are strings, `isStart` is a boolean, and `choices` and ending `rewards` are lists or missing. Non-array values in those places, `null` array elements, and the TypeErrors they would raise are not modelled.
- Strings are sequences of Unicode characters, not UTF-16 code units. JSON numbers are integers.
- Server runtime and I/O are not modelled:
  - the HTTP server, `url.parse`, and body streaming;
  - `fs.readFile` (an input);
  - session-id generation from the clock and a random number (an input);
  - response headers other than the content type;
  - the order of keys in JSON output;
  - logging.
- Js.Get: only own data fields of parsed JSON bodies are modelled. Inherited and built-in properties such as `length` or `toString` are not: here a primitive or an array reads every property as `undefined`, and so does an object that lacks the field. The handlers read only own data fields, so no modelled reply depends on this.
- `path.join` normalisation is not modelled: `Router.Extname` is applied to the requested name itself.
- The database layer (`db-operations.js`) is not part of this model. Each handler's database call is recorded with its arguments, and its outcome is an input.

## Findings

| source | as written | input that shows it | evidently intended | confidence | as-written member | corrected member |
|---|---|---|---|---|---|---|
| api.js:47 | `this.routes[method][pathname]` reads a method table that exists only for GET and POST, so any other method (PUT, DELETE, HEAD) throws a TypeError inside the async `handle`; the promise rejects, the request never gets a response, and on Node 15 or later the unhandled rejection ends the process | `PUT /api/session` (`Router.PutCrashes`) | such requests fall through to the 404 "Not found" branch | medium, not executed | Router.HandleAsWritten | Router.Handle |

=== FILE: basics.dfy ===
/** Building blocks shared by the story engine and the request router:
    JavaScript's missing values as an Option, the first-match search of
    `Array.prototype.find`, and the flattening behind `Array.prototype.join('')`. */
module Basics {

  /** `None` stands for JavaScript's `null` / `undefined`. */
  datatype Option<+T> = None | Some(value: T)

  /** Index of the first element satisfying `p` (`Array.prototype.findIndex`). */
  function FindIndex<T>(xs: seq<T>, p: T -> bool): (r: Option<nat>)
    ensures r.Some? ==> r.value < |xs| && p(xs[r.value])
    ensures r.Some? ==> forall j :: 0 <= j < r.value ==> !p(xs[j])
    ensures r.None? <==> forall j :: 0 <= j < |xs| ==> !p(xs[j])
    decreases |xs|
  {
    if |xs| == 0 then None
    else if p(xs[0]) then Some(0)
    else
      match FindIndex(xs[1..], p)
      case None => None
      case Some(k) => Some(k + 1)
  }

  /** The first element satisfying `p` (`Array.prototype.find`): a later
      match never wins over an earlier one. */
  function Find<T>(xs: seq<T>, p: T -> bool): (r: Option<T>)
    ensures r.None? <==> forall j :: 0 <= j < |xs| ==> !p(xs[j])
    ensures r.Some? ==> exists j :: 0 <= j < |xs| && xs[j] == r.value && p(xs[j])
                                   && forall i :: 0 <= i < j ==> !p(xs[i])
  {
    match FindIndex(xs, p)
    case None => None
    case Some(k) => Some(xs[k])
  }

  /** Concatenation of a sequence of sequences, in order. */
  function Concat<T>(xss: seq<seq<T>>): seq<T>
  {
    if |xss| == 0 then [] else xss[0] + Concat(xss[1..])
  }

  lemma {:induction false} ConcatAppend<T>(xss: seq<seq<T>>, ys: seq<T>)
    ensures Concat(xss + [ys]) == Concat(xss) + ys
  {
    if |xss| == 0 {
      assert xss + [ys] == [ys];
    } else {
      assert (xss + [ys])[1..] == xss[1..] + [ys];
      ConcatAppend(xss[1..], ys);
    }
  }

  /** An element of the concatenation comes from exactly the inner sequences that hold it. */
  lemma {:induction false} ConcatMembership<T>(xss: seq<seq<T>>, x: T)
    ensures x in Concat(xss) <==> exists j :: 0 <= j < |xss| && x in xss[j]
  {
    if |xss| > 0 {
      ConcatMembership(xss[1..], x);
      if x in Concat(xss[1..]) {
        var j :| 0 <= j < |xss[1..]| && x in xss[1..][j];
        assert x in xss[j + 1];
      }
      if exists j :: 0 <= j < |xss| && x in xss[j] {
        var j :| 0 <= j < |xss| && x in xss[j];
        if j > 0 {
          assert x in xss[1..][j - 1];
        }
      }
    }
  }
}

=== FILE: diagnostics.dfy ===
/** `getDetailedErrorMessage`: turns the error that stopped the story from
    loading into the sentence shown on the error page. */
module Diagnostics {
  import opened Text

  /** A thrown JavaScript error: its constructor name and its message. */
  datatype JsError = JsError(name: string, message: string)

  /** The four kinds of message, tested in this order, first match wins. */
  datatype Diagnosis = Unreachable | FileMissing | Corrupted | Unexpected

  // Each text is written as its two sentences.
  const UnreachableText: string :=
    "Unable to load the story file." + " Please check your internet connection and try again."
  const FileMissingText: string :=
    "The story file could not be found." + " Please ensure all files are properly uploaded."
  const CorruptedText: string :=
    "The story file appears to be corrupted." + " Please check the story.json file format."
  const UnexpectedPrefix: string := "An unexpected error occurred: "
  const UnexpectedSuffix: string := ". Please try again or contact support."

  /** A failed `fetch` (a `TypeError` mentioning "fetch") comes first, then
      any message naming 404, then any naming JSON, else the generic case. */
  function Diagnose(e: JsError): (d: Diagnosis)
    ensures d == Unreachable <==> e.name == "TypeError" && Contains(e.message, "fetch")
    ensures d == FileMissing <==>
      !(e.name == "TypeError" && Contains(e.message, "fetch")) && Contains(e.message, "404")
    ensures d == Corrupted <==>
      !(e.name == "TypeError" && Contains(e.message, "fetch")) && !Contains(e.message, "404")
      && Contains(e.message, "JSON")
  {
    if e.name == "TypeError" && Includes(e.message, "fetch") then Unreachable
    else if Includes(e.message, "404") then FileMissing
    else if Includes(e.message, "JSON") then Corrupted
    else Unexpected
  }

  function MessageFor(d: Diagnosis, detail: string): string
  {
    match d
    case Unreachable => UnreachableText
    case FileMissing => FileMissingText
    case Corrupted => CorruptedText
    case Unexpected => UnexpectedPrefix + detail + UnexpectedSuffix
  }

  /** `getDetailedErrorMessage(error)`. Only the generic message repeats the
      error's own message, between a fixed prefix and suffix. */
  function DetailedErrorMessage(e: JsError): (msg: string)
    ensures Diagnose(e) == Unreachable ==> msg == UnreachableText
    ensures Diagnose(e) == FileMissing ==> msg == FileMissingText
    ensures Diagnose(e) == Corrupted ==> msg == CorruptedText
    ensures Diagnose(e) == Unexpected ==>
      |msg| == |UnexpectedPrefix| + |e.message| + |UnexpectedSuffix|
      && StartsWith(msg, UnexpectedPrefix)
      && msg[|UnexpectedPrefix|..|UnexpectedPrefix| + |e.message|] == e.message
      && msg[|UnexpectedPrefix| + |e.message|..] == UnexpectedSuffix
  {
    var msg := MessageFor(Diagnose(e), e.message);
    assert Diagnose(e) == Unexpected ==> msg[..|UnexpectedPrefix|] == UnexpectedPrefix;
    assert Diagnose(e) == Unexpected ==> msg[|UnexpectedPrefix|..|UnexpectedPrefix| + |e.message|] == e.message;
    assert Diagnose(e) == Unexpected ==> msg[|UnexpectedPrefix| + |e.message|..] == UnexpectedSuffix;
    msg
  }

  /** The message tells the kinds apart: different kinds never produce the
      same text, and the generic text determines the error message it quotes. */
  lemma MessagesIdentifyDiagnosis(e1: JsError, e2: JsError)
    requires DetailedErrorMessage(e1) == DetailedErrorMessage(e2)
    ensures Diagnose(e1) == Diagnose(e2)
    ensures Diagnose(e1) == Unexpected ==> e1.message == e2.message
  {
    var m := DetailedErrorMessage(e1);
    var d1, d2 := Diagnose(e1), Diagnose(e2);
    if d1 != d2 {
      DistinctTexts(d1, e1.message, d2, e2.message);
    }
  }

  lemma DistinctTexts(d1: Diagnosis, m1: string, d2: Diagnosis, m2: string)
    requires d1 != d2
    ensures MessageFor(d1, m1) != MessageFor(d2, m2)
  {
    var t1, t2 := MessageFor(d1, m1), MessageFor(d2, m2);
    assert UnreachableText[0] == 'U' && FileMissingText[0] == 'T' && CorruptedText[0] == 'T';
    assert FileMissingText[15] == 'c' && CorruptedText[15] == 'a';
    assert d1 == Unexpected ==> t1[0] == 'A';
    assert d2 == Unexpected ==> t2[0] == 'A';
  }
}

=== FILE: format.dfy ===
/** `formatStoryText`: turns scene or ending text into HTML paragraphs.
    The text is split at line feeds, every line trimmed, blank lines dropped
    and each remaining line wrapped in `<p>…</p>`. The word-emphasis rewrite
    applied to each line is a parameter. */
module Format {
  import opened Basics
  import opened Text

  /** Every line is whitespace only. */
  predicate AllBlank(lines: seq<string>)
  {
    forall i :: 0 <= i < |lines| ==> AllSpace(lines[i])
  }

  /** The trimmed, non-empty lines, in order. */
  function Paragraphs(lines: seq<string>): (ps: seq<string>)
    ensures |ps| <= |lines|
    ensures forall i :: 0 <= i < |ps| ==> ps[i] != [] && !IsJsSpace(ps[i][0]) && !IsJsSpace(ps[i][|ps[i]| - 1])
    ensures AllBlank(lines) <==> ps == []
  {
    if |lines| == 0 then []
    else
      var t := Trim(lines[0]);
      var rest := Paragraphs(lines[1..]);
      assert forall i :: 1 <= i < |lines| ==> lines[i] == lines[1..][i - 1];
      if |t| > 0 then [t] + rest else rest
  }

  /** One paragraph element. */
  function Paragraph(line: string, emphasis: string -> string): string
  {
    "<p>" + emphasis(line) + "</p>"
  }

  /** The paragraphs as elements, joined with no separator (`map(...).join('')`). */
  function Render(ps: seq<string>, emphasis: string -> string): string
  {
    if |ps| == 0 then "" else Paragraph(ps[0], emphasis) + Render(ps[1..], emphasis)
  }

  /** `formatStoryText(text)`: `""` exactly when the text is all whitespace. */
  function FormatStoryText(text: string, emphasis: string -> string): (html: string)
    ensures html == "" <==> AllSpace(text)
  {
    BlankLinesIffBlankText(text);
    Render(Paragraphs(SplitLines(text)), emphasis)
  }

  lemma BlankLinesIffBlankText(text: string)
    ensures AllBlank(SplitLines(text)) <==> AllSpace(text)
  {
    var lines := SplitLines(text);
    assert JoinLines(lines) == text;
    AllSpaceJoin(lines);
  }

  /** Joined lines are blank exactly when every line is: a line feed is whitespace. */
  lemma {:induction false} AllSpaceJoin(parts: seq<string>)
    requires |parts| >= 1
    ensures AllSpace(JoinLines(parts)) <==> AllBlank(parts)
    decreases |parts|
  {
    if |parts| > 1 {
      AllSpaceJoin(parts[1..]);
      AllSpaceAppend(parts[0] + "\n", JoinLines(parts[1..]));
      AllSpaceAppend(parts[0], "\n");
      assert forall i :: 1 <= i < |parts| ==> parts[i] == parts[1..][i - 1];
    }
  }

  lemma {:induction false} ParagraphsAppend(lines: seq<string>, line: string)
    ensures Paragraphs(lines + [line]) == Paragraphs(lines) + (if AllSpace(line) then [] else [Trim(line)])
    decreases |lines|
  {
    if |lines| == 0 {
      assert [line][1..] == [];
    } else {
      assert (lines + [line])[1..] == lines[1..] + [line];
      ParagraphsAppend(lines[1..], line);
    }
  }

  lemma {:induction false} RenderAppend(ps: seq<string>, p: string, emphasis: string -> string)
    ensures Render(ps + [p], emphasis) == Render(ps, emphasis) + Paragraph(p, emphasis)
    decreases |ps|
  {
    if |ps| == 0 {
      assert [p][1..] == [];
    } else {
      assert (ps + [p])[1..] == ps[1..] + [p];
      RenderAppend(ps[1..], p, emphasis);
    }
  }

  /** Formatting is line by line: adding a line after a line feed adds exactly
      one paragraph, holding that line trimmed, when the line is not blank, and
      nothing otherwise. Together with `FormatSingleLine` this fixes the output:
      one `<p>` element per non-blank line, in the order of the lines. */
  lemma FormatAppendLine(text: string, line: string, emphasis: string -> string)
    requires '\n' !in line
    ensures FormatStoryText(text + "\n" + line, emphasis) ==
      FormatStoryText(text, emphasis) + (if AllSpace(line) then "" else Paragraph(Trim(line), emphasis))
  {
    SplitAppendLine(text, line);
    var lines := SplitLines(text);
    ParagraphsAppend(lines, line);
    var ps := Paragraphs(lines);
    if !AllSpace(line) {
      RenderAppend(ps, Trim(line), emphasis);
    } else {
      assert ps + [] == ps;
    }
  }

  /** Text without a line feed gives one paragraph, or none when it is blank. */
  lemma FormatSingleLine(line: string, emphasis: string -> string)
    requires '\n' !in line
    ensures FormatStoryText(line, emphasis) == if AllSpace(line) then "" else Paragraph(Trim(line), emphasis)
  {
    SplitSingleLine(line);
    ParagraphsAppend([], line);
    assert [] + [line] == [line];
    if !AllSpace(line) {
      RenderAppend([], Trim(line), emphasis);
    }
  }
}

=== FILE: js.dfy ===
/** The slice of JavaScript value semantics the router's handlers depend on:
    parsed JSON values, truthiness, the `||` default idiom and property access
    (which throws a TypeError on `null` / `undefined`). */
module Js {
  import opened Basics

  /** A JSON-shaped JavaScript value. Numbers are integers here. */
  datatype JsValue =
    | Undefined
    | Null
    | Bool(b: bool)
    | Num(n: int)
    | Str(s: string)
    | Arr(items: seq<JsValue>)
    | Obj(fields: map<string, JsValue>)

  /** JavaScript truthiness: `undefined`, `null`, `false`, `0` and `""` are falsy. */
  predicate Truthy(v: JsValue)
  {
    match v
    case Undefined => false
    case Null => false
    case Bool(b) => b
    case Num(n) => n != 0
    case Str(s) => s != ""
    case Arr(_) => true
    case Obj(_) => true
  }

  /** `a || b`: the left operand when truthy, the right one otherwise. The
      result is truthy as soon as either operand is. */
  function Or(a: JsValue, b: JsValue): (r: JsValue)
    ensures r == a || r == b
    ensures Truthy(r) <==> Truthy(a) || Truthy(b)
    ensures Truthy(a) ==> r == a
    ensures !Truthy(a) ==> r == b
  {
    if Truthy(a) then a else b
  }

  /** `v[key]` for an own data field of a parsed JSON body: `None` when the
      access throws (on `null` or `undefined`), the field's value when the
      object has it, and `undefined` otherwise. Inherited and built-in
      properties (`length`, `toString`) are not part of this model. */
  function Get(v: JsValue, key: string): (r: Option<JsValue>)
    ensures r.None? <==> v.Undefined? || v.Null?
    ensures v.Obj? && key in v.fields ==> r == Some(v.fields[key])
    ensures v.Obj? && key !in v.fields ==> r == Some(Undefined)
    ensures !v.Obj? && !v.Undefined? && !v.Null? ==> r == Some(Undefined)
  {
    match v
    case Undefined => None
    case Null => None
    case Obj(fields) => Some(if key in fields then fields[key] else Undefined)
    case _ => Some(Undefined)
  }

  /** An object literal with no fields: `{}`. */
  const EmptyObject: JsValue := Obj(map[])
}

=== FILE: navigation.dfy ===
/** The story navigation engine of `RomanticAdventure` without the DOM: its
    state, the operations the buttons and timers trigger, and an event loop
    that strings them together. The outcomes of `fetch` calls are inputs. */
module Navigation {
  import opened Basics
  import opened Text
  import opened Story
  import opened Validation
  import opened Diagnostics
  import opened Rewards

  /** Why the error page is showing. */
  datatype Fault =
    | LoadFailed(message: string)       // loading story.json failed; the message shown
    | NoStartScene                      // startStory found no scene flagged isStart
    | StoryUnavailable                  // loadScene without a scenes list
    | SceneLoadCrashed                  // loadScene's catch: scenes is not an array
    | SceneMissing(sceneId: string)     // loadScene: no scene has the id
    | NextSceneMissing(sceneId: string) // a choice names an unknown next scene
    | DeadEndChoice                     // a choice with neither target
    | EndingMissing(endingId: string)   // showEnding: no ending has the id
    | Uncaught                          // a TypeError reached the window's global handlers

  /** The page on show, with what the end page displays. */
  datatype Page =
    | Homepage
    | StoryPage
    | EndPage(ending: Ending, rewards: seq<Reward>)
    | ErrorPage(fault: Fault)

  /** The engine's fields. `inFlight` is the scene a started `loadScene` is
      waiting to display, `timers` the ending ids whose `showEnding` is
      scheduled and has not run yet, oldest first, and `pending` the clicked
      choices whose `handleChoiceSelection` has not yet navigated. */
  datatype NavState = NavState(
    story: Option<Doc>,
    current: Option<Scene>,
    history: seq<Scene>,
    page: Page,
    loading: bool,
    session: Option<string>,
    choiceOrder: nat,
    inFlight: Option<Scene>,
    timers: seq<string>,
    pending: seq<Choice>)

  /** The state the constructor builds. */
  const Initial: NavState := NavState(None, None, [], Homepage, false, None, 0, None, [], [])

  /** What `fetch('story.json')` and `response.json()` produce. `Body(None)`
      is a document that parses to a falsy value such as `null`. */
  datatype FetchOutcome =
    | NetworkFailure(error: JsError)
    | HttpFailure(status: nat, statusText: string)
    | BodyFailure(error: JsError)
    | Body(json: Option<Doc>)

  /** What the `/api/session` request produces: an ok reply with the
      `sessionId` field it carried, or anything else (error status, network). */
  datatype SessionReply = SessionGranted(sessionId: Option<string>) | SessionUnavailable

  /** The body `trackChoice` posts to `/api/story/choice`. */
  datatype ChoiceReport = ChoiceReport(
    sessionId: string, sceneId: string, choiceText: string, nextSceneId: Option<string>, choiceOrder: nat)

  /** What `displayScene` does after showing a scene's text. */
  datatype FollowUp = OfferChoices(choices: seq<Choice>) | AutoEnding(endingId: string) | NoFollowUp

  /** `showError`: only the page changes. */
  function ShowError(s: NavState, f: Fault): NavState
  {
    s.(page := ErrorPage(f))
  }

  /** The `Error` thrown for a response that is not ok. */
  function HttpError(status: nat, statusText: string): JsError
  {
    JsError("Error", "Failed to load story: " + Decimal(status) + " " + statusText)
  }

  /** The fetch yields a document that validation accepts. */
  predicate Loads(f: FetchOutcome)
  {
    f.Body? && Validate(f.json).Accepted?
  }

  /** `loadStoryData`. The parsed document is stored before it is validated,
      so a rejected document stays in `story`. */
  function LoadStoryData(s: NavState, fetch: FetchOutcome): (r: (NavState, bool))
    ensures s.loading ==> r == (s, false)
    ensures !s.loading ==> (r.1 <==> Loads(fetch))
    ensures r.0 == s.(story := r.0.story, page := r.0.page)
    ensures !s.loading && fetch.Body? ==> r.0.story == fetch.json
    ensures !fetch.Body? ==> r.0.story == s.story
    ensures !s.loading && !r.1 ==> r.0.page.ErrorPage? && r.0.page.fault.LoadFailed?
    ensures r.1 ==> r.0.page == s.page
    ensures !s.loading && fetch.NetworkFailure? ==> r.0.page == ErrorPage(LoadFailed(DetailedErrorMessage(fetch.error)))
    ensures !s.loading && fetch.BodyFailure? ==> r.0.page == ErrorPage(LoadFailed(DetailedErrorMessage(fetch.error)))
    ensures !s.loading && fetch.HttpFailure? ==>
      r.0.page == ErrorPage(LoadFailed(DetailedErrorMessage(HttpError(fetch.status, fetch.statusText))))
    ensures !s.loading && fetch.Body? && Validate(fetch.json).Rejected? ==>
      r.0.page == ErrorPage(LoadFailed(DetailedErrorMessage(JsError("Error", RejectionText(Validate(fetch.json).reason)))))
  {
    if s.loading then (s, false)
    else
      match fetch
      case NetworkFailure(e) => (ShowError(s, LoadFailed(DetailedErrorMessage(e))), false)
      case HttpFailure(status, text) => (ShowError(s, LoadFailed(DetailedErrorMessage(HttpError(status, text)))), false)
      case BodyFailure(e) => (ShowError(s, LoadFailed(DetailedErrorMessage(e))), false)
      case Body(json) =>
        var s1 := s.(story := json);
        match Validate(json)
        case Rejected(why) => (ShowError(s1, LoadFailed(DetailedErrorMessage(JsError("Error", RejectionText(why))))), false)
        case Accepted(_) => (s1, true)
  }

  /** A 404 reply to the story request shows the "could not be found" message. */
  lemma NotFoundReplyMessage(s: NavState, statusText: string)
    requires !s.loading
    ensures LoadStoryData(s, HttpFailure(404, statusText)).0.page == ErrorPage(LoadFailed(FileMissingText))
  {
    var e := HttpError(404, statusText);
    HttpErrorNames404(statusText);
    assert Diagnose(e) == FileMissing;
    assert DetailedErrorMessage(e) == FileMissingText;
  }

  /** The error thrown for a 404 reply is not a `TypeError` and mentions 404. */
  lemma HttpErrorNames404(statusText: string)
    ensures HttpError(404, statusText).name == "Error"
    ensures Contains(HttpError(404, statusText).message, "404")
  {
    var head := "Failed to load story: " + Decimal(404);
    assert Decimal(404) == "404";
    assert OccursAt(head, "404", 22);
    ContainsInLeft(head, " " + statusText, "404");
    assert HttpError(404, statusText).message == head + (" " + statusText);
  }

  /** `initializeSession`: an ok reply replaces the id with whatever the
      reply carries, a missing one included; a failed or refused request
      keeps the old id. Nothing else changes. */
  function InitializeSession(s: NavState, reply: SessionReply): (r: NavState)
    ensures r == s.(session := r.session)
    ensures reply.SessionGranted? ==> r.session == reply.sessionId
    ensures reply.SessionUnavailable? ==> r.session == s.session
  {
    match reply
    case SessionGranted(id) => s.(session := id)
    case SessionUnavailable => s
  }

  /** The part of `loadScene` that runs before its first `await`: the guard,
      the lookup, the history update and the switch to the story page. A
      successful call leaves `loading` set until `SettleLoad`. */
  function BeginLoadScene(s: NavState, id: string): (r: (NavState, bool))
    ensures s.loading ==> r == (s, false)
    ensures r.1 <==> !s.loading && s.story.Some? && s.story.value.scenes.Items?
                     && SceneById(s.story.value.scenes.items, id).Some?
    ensures r.1 ==> r.0.current == SceneById(s.story.value.scenes.items, id) && r.0.inFlight == r.0.current
                    && r.0.loading && r.0.page == StoryPage
    ensures r.1 && s.current.Some? && s.current.value.id != id ==> r.0.history == s.history + [s.current.value]
    ensures r.1 && (s.current.None? || s.current.value.id == id) ==> r.0.history == s.history
    ensures !r.1 ==> r.0 == s.(page := r.0.page)
    ensures !s.loading && !r.1 ==> r.0.page.ErrorPage?
    ensures (!s.loading && s.story.Some? && s.story.value.scenes.Items?
             && SceneById(s.story.value.scenes.items, id).None?) ==> r.0.page == ErrorPage(SceneMissing(id))
    ensures r.0.story == s.story && r.0.session == s.session && r.0.choiceOrder == s.choiceOrder
            && r.0.timers == s.timers
  {
    if s.loading then (s, false)
    else
      match s.story
      case None => (ShowError(s, StoryUnavailable), false)
      case Some(doc) =>
        match doc.scenes
        case Absent => (ShowError(s, StoryUnavailable), false)
        case NotArray => (ShowError(s, SceneLoadCrashed), false)
        case Items(scenes) =>
          match SceneById(scenes, id)
          case None => (ShowError(s, SceneMissing(id)), false)
          case Some(sc) =>
            var history := if s.current.Some? && s.current.value.id != id then s.history + [s.current.value] else s.history;
            (s.(history := history, current := Some(sc), page := StoryPage, loading := true, inFlight := Some(sc)), true)
  }

  predicate HasChoices(sc: Scene)
  {
    sc.choices.Some? && |sc.choices.value| > 0
  }

  /** The choice/ending branch of `displayScene`: a non-empty choice list
      wins over an ending, and a scene with neither gets no follow-up. */
  function SceneFollowUp(sc: Scene): (f: FollowUp)
    ensures f.OfferChoices? <==> sc.choices.Some? && |sc.choices.value| > 0
    ensures f.OfferChoices? ==> f.choices == sc.choices.value
    ensures f.AutoEnding? <==> !HasChoices(sc) && sc.ending.Some? && sc.ending.value != ""
    ensures f.AutoEnding? ==> Some(f.endingId) == sc.ending
  {
    if HasChoices(sc) then OfferChoices(sc.choices.value)
    else if Given(sc.ending) then AutoEnding(sc.ending.value)
    else NoFollowUp
  }

  /** The rest of `loadScene`, once its timer fires: the scene is displayed,
      `loading` is cleared, and a scene without choices but with an ending
      schedules that ending. Choices win over an ending; a scene with neither
      just stays on screen. */
  function SettleLoad(s: NavState): (r: NavState)
    ensures s.inFlight.None? ==> r == s
    ensures s.inFlight.Some? ==> !r.loading && r.inFlight.None?
                                 && r == s.(loading := r.loading, inFlight := r.inFlight, timers := r.timers)
    ensures s.inFlight.Some? && HasChoices(s.inFlight.value) ==> r.timers == s.timers
    ensures s.inFlight.Some? && !HasChoices(s.inFlight.value) && Given(s.inFlight.value.ending)
            ==> r.timers == s.timers + [s.inFlight.value.ending.value]
    ensures s.inFlight.Some? && !HasChoices(s.inFlight.value) && !Given(s.inFlight.value.ending)
            ==> r.timers == s.timers
  {
    match s.inFlight
    case None => s
    case Some(sc) =>
      var timers := match SceneFollowUp(sc) case AutoEnding(e) => s.timers + [e] case _ => s.timers;
      s.(loading := false, inFlight := None, timers := timers)
  }

  /** `loadScene` run to completion. */
  function LoadScene(s: NavState, id: string): (r: (NavState, bool))
    ensures s.loading ==> r == (s, false)
    ensures !s.loading ==> !r.0.loading
    ensures r.1 ==> r.0.current.Some? && r.0.current.value.id == id && r.0.page == StoryPage && r.0.inFlight.None?
    ensures !r.1 ==> r.0.current == s.current && r.0.history == s.history
    ensures r.1 ==> SceneNumber(r.0) == SceneNumber(s) + (if s.current.Some? && s.current.value.id != id then 1 else 0)
  {
    var (s1, ok) := BeginLoadScene(s, id);
    if ok then (SettleLoad(s1), true) else (s1, false)
  }

  /** The number `updateProgress` shows. */
  function SceneNumber(s: NavState): nat
  {
    |s.history| + 1
  }

  /** The counter text `updateProgress` writes: "Scene " and the number. */
  function SceneCounterText(s: NavState): (t: string)
    ensures |t| > 6 && t[..6] == "Scene "
    ensures forall i :: 6 <= i < |t| ==> IsDigit(t[i])
    ensures |t| > 7 ==> t[6] != '0'
    ensures ParseDecimal(t[6..]) == |s.history| + 1
  {
    var t := "Scene " + Decimal(SceneNumber(s));
    assert t[6..] == Decimal(SceneNumber(s));
    t
  }

  /** The counter `trackChoice` keeps and the report it posts. The counter
      moves only when there is a session id; with one but no current scene
      the report cannot be built (reading `currentScene.id` throws inside
      the `try`), so nothing is sent. The reply is never read. */
  function TrackChoice(s: NavState, c: Choice): (r: (NavState, Option<ChoiceReport>))
    ensures Given(s.session) ==> r.0 == s.(choiceOrder := s.choiceOrder + 1)
    ensures !Given(s.session) ==> r.0 == s && r.1.None?
    ensures r.1.Some? <==> Given(s.session) && s.current.Some?
    ensures r.1.Some? ==> r.1.value.choiceOrder == r.0.choiceOrder >= 1
                          && r.1.value.sessionId == s.session.value && r.1.value.sceneId == s.current.value.id
  {
    if !Given(s.session) then (s, None)
    else
      var s1 := s.(choiceOrder := s.choiceOrder + 1);
      match s.current
      case None => (s1, None)
      case Some(sc) =>
        var target := if Given(c.nextScene) then c.nextScene else c.ending;
        (s1, Some(ChoiceReport(s.session.value, sc.id, c.text, target, s1.choiceOrder)))
  }

  /** `showEnding` with `displayEnding` and `displayRewards`. Only the page
      changes: history, current scene and the loading state are left alone. */
  function ShowEnding(s: NavState, id: string): (r: NavState)
    ensures r == s.(page := r.page)
    ensures r.page.EndPage? ==> r.page.ending.id == id
    ensures s.story.Some? && s.story.value.endings.Items? && s.story.value.rewards.Items?
            && EndingById(s.story.value.endings.items, id).Some?
            ==> r.page == EndPage(EndingById(s.story.value.endings.items, id).value,
                                  SelectRewards(RewardIdsOf(EndingById(s.story.value.endings.items, id).value),
                                                s.story.value.rewards.items))
    ensures s.story.Some? && s.story.value.endings.Items? && EndingById(s.story.value.endings.items, id).None?
            ==> r.page == ErrorPage(EndingMissing(id))
  {
    if s.story.None? || !s.story.value.endings.Items? then ShowError(s, Uncaught)
    else
      var doc := s.story.value;
      match EndingById(doc.endings.items, id)
      case None => ShowError(s, EndingMissing(id))
      case Some(e) =>
        if !doc.rewards.Items? then ShowError(s, Uncaught)
        else s.(page := EndPage(e, SelectRewards(RewardIdsOf(e), doc.rewards.items)))
  }

  /** The navigation `handleChoiceSelection` performs once tracking and its
      200 ms pause are over. It does not look at `loading`: an ending is shown
      regardless, and a next scene goes through `loadScene`, whose own guard
      turns it away while another load is in flight. An ending wins over a
      next scene; an unknown next scene or a choice with neither target
      shows the error page. */
  function Navigate(s: NavState, c: Choice): (r: NavState)
    ensures r.story == s.story && r.session == s.session && r.choiceOrder == s.choiceOrder
            && r.pending == s.pending && r.timers == s.timers
    ensures Given(c.ending) ==> r == s.(page := r.page)
    ensures Given(c.ending) && r.page.EndPage? ==> r.page.ending.id == c.ending.value
    ensures !Given(c.ending) && Given(c.nextScene) && s.story.Some? && s.story.value.scenes.Items? ==>
      (match SceneById(s.story.value.scenes.items, c.nextScene.value)
       case None => r == ShowError(s, NextSceneMissing(c.nextScene.value))
       case Some(sc) => if s.loading then r == s
                        else r.current == Some(sc) && r.loading && r.inFlight == Some(sc) && r.page == StoryPage)
    ensures !Given(c.ending) && !Given(c.nextScene) ==> r == ShowError(s, DeadEndChoice)
    ensures r.loading && !s.loading ==>
      !Given(c.ending) && Given(c.nextScene) && r.current.Some? && r.current.value.id == c.nextScene.value
    ensures s.loading ==> r.loading && r.inFlight == s.inFlight
    ensures Inv(s) ==> Inv(r)
    ensures r.history == s.history || (s.current.Some? && r.history == s.history + [s.current.value])
  {
    if Given(c.ending) then ShowEnding(s, c.ending.value)
    else if Given(c.nextScene) then
      var id := c.nextScene.value;
      if s.story.None? || !s.story.value.scenes.Items? then ShowError(s, Uncaught)
      else if SceneById(s.story.value.scenes.items, id).None? then ShowError(s, NextSceneMissing(id))
      else BeginLoadScene(s, id).0
    else ShowError(s, DeadEndChoice)
  }

  /** The part of `handleChoiceSelection` that runs on the click itself: it
      is ignored while a scene load is in flight; otherwise `trackChoice`
      moves the counter (when there is a session) and the choice waits out
      tracking and the pause. `loading` is not set, so further clicks in that
      window are accepted as well. */
  function SelectChoice(s: NavState, c: Choice): (r: NavState)
    ensures s.loading ==> r == s
    ensures !s.loading ==> r == s.(choiceOrder := r.choiceOrder, pending := s.pending + [c])
    ensures !s.loading ==> r.choiceOrder == s.choiceOrder + (if Given(s.session) then 1 else 0)
  {
    if s.loading then s else TrackChoice(s, c).0.(pending := s.pending + [c])
  }

  /** The pause of pending choice `i` is over: exactly that entry leaves the
      queue, and the state moves on as navigating with that choice does;
      the other waiting choices play no part. */
  function ResolveChoice(s: NavState, i: nat): (r: NavState)
    ensures i >= |s.pending| ==> r == s
    ensures i < |s.pending| ==> r.pending == s.pending[..i] + s.pending[i + 1..]
    ensures i < |s.pending| ==> r == Navigate(s, s.pending[i]).(pending := r.pending)
  {
    if i < |s.pending| then
      var rest := s.pending[..i] + s.pending[i + 1..];
      NavigateIgnoresPending(s, s.pending[i], rest);
      Navigate(s.(pending := rest), s.pending[i])
    else s
  }

  /** Navigation never reads the queue of waiting choices. */
  lemma NavigateIgnoresPending(s: NavState, c: Choice, p: seq<Choice>)
    ensures Navigate(s.(pending := p), c) == Navigate(s, c).(pending := p)
  {
  }

  /** `handleChoiceSelection` run without another event in between. Ignored
      while a scene load is in flight; otherwise the counter moves (with a
      session), then an ending wins over a next scene, and an unknown next
      scene or a choice without target shows the error page. It never sets
      `loading` itself: only the scene load it begins does. */
  function HandleChoiceSelection(s: NavState, c: Choice): (r: NavState)
    ensures s.loading ==> r == s
    ensures !s.loading ==> r.choiceOrder == s.choiceOrder + (if Given(s.session) then 1 else 0)
    ensures r.story == s.story && r.session == s.session && r.pending == s.pending
    ensures !s.loading && Given(c.ending) ==>
      r.page == ShowEnding(s, c.ending.value).page && r.history == s.history && r.current == s.current && !r.loading
    ensures !s.loading && !Given(c.ending) && Given(c.nextScene) && s.story.Some? && s.story.value.scenes.Items? ==>
      r.current == (match SceneById(s.story.value.scenes.items, c.nextScene.value)
                    case None => s.current case Some(sc) => Some(sc))
    ensures !s.loading && !Given(c.ending) && Given(c.nextScene) && s.story.Some? && s.story.value.scenes.Items?
            && SceneById(s.story.value.scenes.items, c.nextScene.value).None?
            ==> r.page == ErrorPage(NextSceneMissing(c.nextScene.value)) && r.history == s.history
    ensures !s.loading && !Given(c.ending) && !Given(c.nextScene) ==>
      r.page == ErrorPage(DeadEndChoice) && r.history == s.history && r.current == s.current
    ensures !s.loading && r.loading ==>
      !Given(c.ending) && Given(c.nextScene) && r.current.Some? && r.current.value.id == c.nextScene.value
      && r.inFlight == r.current
    ensures Inv(s) ==> Inv(r)
  {
    if s.loading then s else Navigate(TrackChoice(s, c).0, c)
  }

  /** The click and the end of its pause, with nothing in between, are
      `HandleChoiceSelection`. */
  lemma UninterruptedChoice(s: NavState, c: Choice)
    requires !s.loading
    ensures ResolveChoice(SelectChoice(s, c), |s.pending|) == HandleChoiceSelection(s, c)
  {
    var s1 := SelectChoice(s, c);
    assert s1.pending[..|s.pending|] + s1.pending[|s.pending| + 1..] == s.pending;
  }

  /** The first loaded document either was cached or is fetched now and accepted. */
  predicate Enters(s: NavState, fetch: FetchOutcome)
  {
    s.story.Some? || (!s.loading && Loads(fetch))
  }

  /** `startStory`. The document is fetched only when none is held; a failed
      fetch or a rejected document ends the call with the error page and
      nothing reset. Otherwise history, current scene and counter are reset
      and the first scene flagged as start, in document order, is loaded. */
  function StartStory(s: NavState, fetch: FetchOutcome, reply: SessionReply): (r: NavState)
    ensures s.story.Some? ==> r.story == s.story
    ensures s.story.None? && !Enters(s, fetch) ==>
      r.history == s.history && r.current == s.current && r.choiceOrder == s.choiceOrder
      && r.session == s.session && r.loading == s.loading
    ensures s.story.None? && !s.loading && !Loads(fetch) ==> r.page.ErrorPage?
    ensures Enters(s, fetch) ==> r.story.Some? && r.history == [] && r.choiceOrder == 0
    ensures Enters(s, fetch) && !s.loading && r.story.value.scenes.Items? && StartScene(r.story.value.scenes.items).Some? ==>
      r.current.Some? && r.current.value.id == StartScene(r.story.value.scenes.items).value.id
      && r.page == StoryPage && r.loading
    ensures Enters(s, fetch) && !s.loading && r.story.value.scenes.Items?
            && StartScene(r.story.value.scenes.items).Some? && UniqueSceneIds(r.story.value.scenes.items) ==>
      r.current == StartScene(r.story.value.scenes.items)
    ensures Enters(s, fetch) && r.story.value.scenes.Items? && StartScene(r.story.value.scenes.items).None? ==>
      r.page == ErrorPage(Fault.NoStartScene) && r.current.None?
    ensures s.story.Some? && s.loading ==> r.current.None? && r.loading && r.inFlight == s.inFlight
    ensures s.loading ==> r.loading && r.inFlight == s.inFlight
    ensures Inv(s) ==> Inv(r)
    ensures r.history == s.history || r.history == []
    ensures r.choiceOrder == s.choiceOrder || r.choiceOrder == 0
  {
    var (s1, ok) := if s.story.None? then LoadStoryData(s, fetch) else (s, true);
    if !ok then s1
    else
      var s2 := InitializeSession(s1, reply).(history := [], current := None, choiceOrder := 0);
      if s2.story.None? || !s2.story.value.scenes.Items? then ShowError(s2, Uncaught)
      else
        var scenes := s2.story.value.scenes.items;
        match StartScene(scenes)
        case None => ShowError(s2, Fault.NoStartScene)
        case Some(st) =>
          FirstWithIdIsFound(scenes, st);
          BeginLoadScene(s2.(page := StoryPage), st.id).0
  }

  /** Looking a scene up by its own id finds a scene with that id; with
      distinct ids it finds that very scene. */
  lemma FirstWithIdIsFound(scenes: seq<Scene>, sc: Scene)
    requires sc in scenes
    ensures SceneById(scenes, sc.id).Some?
    ensures UniqueSceneIds(scenes) ==> SceneById(scenes, sc.id) == Some(sc)
  {
    var k :| 0 <= k < |scenes| && scenes[k] == sc;
    if UniqueSceneIds(scenes) {
      var found := SceneById(scenes, sc.id).value;
      var j :| 0 <= j < |scenes| && scenes[j] == found && scenes[j].id == sc.id
               && forall i :: 0 <= i < j ==> scenes[i].id != sc.id;
      assert j == k;
    }
  }

  /** `restartStory`: clears history and current scene, then `startStory`,
      which reuses the held document and enters its first start scene. */
  function RestartStory(s: NavState, fetch: FetchOutcome, reply: SessionReply): (r: NavState)
    ensures s.story.Some? ==> r.story == s.story && r.history == [] && r.choiceOrder == 0
    ensures s.story.Some? && !s.loading && s.story.value.scenes.Items? && StartScene(s.story.value.scenes.items).Some? ==>
      r.current.Some? && r.current.value.id == StartScene(s.story.value.scenes.items).value.id
      && r.page == StoryPage && r.loading
    ensures s.story.Some? && s.story.value.scenes.Items? && StartScene(s.story.value.scenes.items).None? ==>
      r.page == ErrorPage(Fault.NoStartScene) && r.current.None?
    ensures s.story.None? && !Enters(s, fetch) ==>
      r.history == [] && r.current.None? && r.choiceOrder == s.choiceOrder
    ensures s.loading ==> r.loading && r.inFlight == s.inFlight
    ensures Inv(s) ==> Inv(r)
    ensures r.history == [] && (r.choiceOrder == s.choiceOrder || r.choiceOrder == 0)
  {
    StartStory(s.(history := [], current := None), fetch, reply)
  }

  /** `goHome`: back to the homepage with history and current scene cleared.
      The counter, the session, a load in flight, pending choices and
      scheduled endings are left as they are. */
  function GoHome(s: NavState): (r: NavState)
    ensures r.page == Homepage && r.history == [] && r.current.None?
    ensures r.(page := s.page, history := s.history, current := s.current) == s
  {
    s.(history := [], current := None, page := Homepage)
  }

  /** The inputs the engine reacts to: buttons (start and retry share
      `Start`; restart and play-again share `Restart`; back-home, home and
      Escape share `Home`), a choice button, the end of the tracking and
      pause of pending choice `index` (any of them: tracking replies can
      arrive in any order), the timer inside `loadScene`, and the oldest
      scheduled `showEnding` timer. */
  datatype Event =
    | Start(fetch: FetchOutcome, reply: SessionReply)
    | Restart(fetch: FetchOutcome, reply: SessionReply)
    | Home
    | Choose(choice: Choice)
    | PauseOver(index: nat)
    | LoadSettled
    | EndingTimer

  /** A load is in flight exactly when `loading` is set, and only with a document. */
  predicate Inv(s: NavState)
  {
    s.loading == s.inFlight.Some? && (s.inFlight.Some? ==> s.story.Some?)
  }

  /** One event. For every event: a held document is never replaced, the
      counter steps by one or resets, history is kept, cleared, or grows by
      the scene being left, a choice during a load is ignored, and only the
      load's own timer ends a load in flight. */
  function Dispatch(s: NavState, e: Event): (r: NavState)
    ensures Inv(s) ==> Inv(r)
    ensures s.story.Some? ==> r.story == s.story
    ensures r.choiceOrder == s.choiceOrder || r.choiceOrder == s.choiceOrder + 1 || r.choiceOrder == 0
    ensures !e.Choose? ==> r.choiceOrder <= s.choiceOrder
    ensures r.history == s.history || r.history == [] || (s.current.Some? && r.history == s.history + [s.current.value])
    ensures s.loading && e.Choose? ==> r == s
    ensures s.loading && !e.LoadSettled? ==> r.loading && r.inFlight == s.inFlight
    ensures e.Start? ==> r == StartStory(s, e.fetch, e.reply)
    ensures e.Restart? ==> r == RestartStory(s, e.fetch, e.reply)
    ensures e.Home? ==> r == GoHome(s)
    ensures e.Choose? ==> r == SelectChoice(s, e.choice)
    ensures e.PauseOver? ==> r == ResolveChoice(s, e.index)
    ensures e.LoadSettled? ==> r == SettleLoad(s)
    ensures e.EndingTimer? && |s.timers| > 0 ==> r == ShowEnding(s.(timers := s.timers[1..]), s.timers[0])
    ensures e.EndingTimer? && |s.timers| == 0 ==> r == s
  {
    match e
    case Start(f, reply) => StartStory(s, f, reply)
    case Restart(f, reply) => RestartStory(s, f, reply)
    case Home => GoHome(s)
    case Choose(c) => SelectChoice(s, c)
    case PauseOver(i) => ResolveChoice(s, i)
    case LoadSettled => SettleLoad(s)
    case EndingTimer =>
      if |s.timers| == 0 then s else ShowEnding(s.(timers := s.timers[1..]), s.timers[0])
  }

  /** The events, in order. */
  function Run(s: NavState, events: seq<Event>): NavState
    decreases |events|
  {
    if |events| == 0 then s else Run(Dispatch(s, events[0]), events[1..])
  }

  /** A scene without choices but with an ending leads to that ending: once
      the scene has settled, its ending timer shows the ending page. */
  lemma TerminalSceneShowsEnding(s: NavState)
    requires s.inFlight.Some? && !HasChoices(s.inFlight.value) && Given(s.inFlight.value.ending)
    requires s.timers == []
    ensures Run(s, [LoadSettled, EndingTimer]).page == ShowEnding(s, s.inFlight.value.ending.value).page
  {
    var s1 := Dispatch(s, LoadSettled);
    assert s1.timers == [s.inFlight.value.ending.value];
    assert [LoadSettled, EndingTimer][1..] == [EndingTimer];
    assert [EndingTimer][1..] == [];
  }

  /** Running two event sequences one after the other is running their concatenation. */
  lemma {:induction false} RunConcat(s: NavState, a: seq<Event>, b: seq<Event>)
    ensures Run(s, a + b) == Run(Run(s, a), b)
    decreases |a|
  {
    if |a| == 0 {
      assert a + b == b;
    } else {
      assert (a + b)[0] == a[0] && (a + b)[1..] == a[1..] + b;
      RunConcat(Dispatch(s, a[0]), a[1..], b);
    }
  }

  /** Once a document is held no sequence of events replaces it: the story
      file is fetched at most once per page load, and restarts reuse it. */
  lemma {:induction false} RunKeepsStory(s: NavState, events: seq<Event>)
    requires s.story.Some?
    ensures Run(s, events).story == s.story
    decreases |events|
  {
    if |events| > 0 {
      RunKeepsStory(Dispatch(s, events[0]), events[1..]);
    }
  }

  /** From any state where it holds, `loading` stays set exactly while a
      scene load is in flight, and only once a document is held. */
  lemma {:induction false} LoadingTracksInFlight(s: NavState, events: seq<Event>)
    requires Inv(s)
    ensures Inv(Run(s, events))
    decreases |events|
  {
    if |events| > 0 {
      LoadingTracksInFlight(Dispatch(s, events[0]), events[1..]);
    }
  }

  /** The constructor's state is such a state, so the invariant holds on
      every run of the page. */
  lemma LoadingTracksInFlightFromStart(events: seq<Event>)
    ensures Inv(Run(Initial, events))
  {
    LoadingTracksInFlight(Initial, events);
  }

  /** How many of the events are choices. */
  function Choices(events: seq<Event>): nat
  {
    if |events| == 0 then 0 else (if events[0].Choose? then 1 else 0) + Choices(events[1..])
  }

  /** The counter never runs ahead of the choices made: after any events it
      is at most its start value plus the number of choice events. */
  lemma {:induction false} CounterBoundedByChoices(s: NavState, events: seq<Event>)
    ensures Run(s, events).choiceOrder <= s.choiceOrder + Choices(events)
    decreases |events|
  {
    if |events| > 0 {
      var s1 := Dispatch(s, events[0]);
      CounterBoundedByChoices(s1, events[1..]);
      assert Run(s, events) == Run(s1, events[1..]);
      assert Choices(events) == (if events[0].Choose? then 1 else 0) + Choices(events[1..]);
    }
  }
}

=== FILE: rewards.dfy ===
/** The selection half of `displayRewards`: which rewards an ending offers. */
module Rewards {
  import opened Basics
  import opened Story

  /** Each listed id looked up in turn; ids with no reward are skipped. */
  function KnownRewards(ids: seq<string>, rewards: seq<Reward>): (r: seq<Reward>)
    ensures |r| <= |ids|
    ensures forall x :: x in r ==> x in rewards && x.id in ids
  {
    if |ids| == 0 then []
    else
      var rest := KnownRewards(ids[1..], rewards);
      assert forall id :: id in ids[1..] ==> id in ids;
      match RewardById(rewards, ids[0])
      case None => rest
      case Some(x) => [x] + rest
  }

  /** Every reward flagged `isDefault`, in document order. */
  function DefaultRewards(rewards: seq<Reward>): (r: seq<Reward>)
    ensures forall x :: x in r <==> x in rewards && x.isDefault
  {
    if |rewards| == 0 then []
    else
      var rest := DefaultRewards(rewards[1..]);
      assert forall x :: x in rewards <==> x == rewards[0] || x in rewards[1..];
      if rewards[0].isDefault then [rewards[0]] + rest else rest
  }

  /** `displayRewards(ids)`: the known rewards among a non-empty id list, and
      the default rewards only when the list is empty. An ending whose ids are
      all unknown offers nothing; it never falls back to the defaults. */
  function SelectRewards(ids: seq<string>, rewards: seq<Reward>): (r: seq<Reward>)
    ensures forall x :: x in r ==> x in rewards
    ensures |ids| > 0 ==> |r| <= |ids| && forall x :: x in r ==> x.id in ids
    ensures |ids| == 0 ==> forall x :: x in r <==> x in rewards && x.isDefault
    ensures |ids| > 0 ==> r == KnownRewards(ids, rewards)
    ensures |ids| == 0 ==> r == DefaultRewards(rewards)
  {
    if |ids| == 0 then DefaultRewards(rewards) else KnownRewards(ids, rewards)
  }

  /** When every listed id names a reward, the ending offers one reward per id,
      in list order, each the first reward carrying that id. */
  lemma {:induction false} AllKnownIdsAreOffered(ids: seq<string>, rewards: seq<Reward>)
    requires forall i :: 0 <= i < |ids| ==> RewardById(rewards, ids[i]).Some?
    ensures |KnownRewards(ids, rewards)| == |ids|
    ensures forall i :: 0 <= i < |ids| ==> KnownRewards(ids, rewards)[i] == RewardById(rewards, ids[i]).value
    decreases |ids|
  {
    if |ids| > 0 {
      assert forall i :: 0 <= i < |ids[1..]| ==> ids[1..][i] == ids[i + 1];
      AllKnownIdsAreOffered(ids[1..], rewards);
    }
  }

  /** A non-empty list of unknown ids offers no reward at all. */
  lemma {:induction false} UnknownIdsOfferNothing(ids: seq<string>, rewards: seq<Reward>)
    requires |ids| > 0
    requires forall i :: 0 <= i < |ids| ==> RewardById(rewards, ids[i]).None?
    ensures SelectRewards(ids, rewards) == []
  {
    NoneKnown(ids, rewards);
  }

  lemma {:induction false} NoneKnown(ids: seq<string>, rewards: seq<Reward>)
    requires forall i :: 0 <= i < |ids| ==> RewardById(rewards, ids[i]).None?
    ensures KnownRewards(ids, rewards) == []
    decreases |ids|
  {
    if |ids| > 0 {
      assert forall i :: 0 <= i < |ids[1..]| ==> ids[1..][i] == ids[i + 1];
      NoneKnown(ids[1..], rewards);
    }
  }

  /** Unknown ids are dropped without disturbing the others: adding one to the
      end of the list changes nothing, adding a known one appends its reward. */
  lemma {:induction false} KnownRewardsAppend(ids: seq<string>, id: string, rewards: seq<Reward>)
    ensures KnownRewards(ids + [id], rewards) ==
      KnownRewards(ids, rewards) + (match RewardById(rewards, id) case None => [] case Some(x) => [x])
    decreases |ids|
  {
    if |ids| == 0 {
      assert [id][1..] == [];
    } else {
      assert (ids + [id])[1..] == ids[1..] + [id];
      KnownRewardsAppend(ids[1..], id, rewards);
    }
  }

  /** Defaults keep document order: a reward added at the end of the document
      is offered last, if it is a default. */
  lemma {:induction false} DefaultRewardsAppend(rewards: seq<Reward>, x: Reward)
    ensures DefaultRewards(rewards + [x]) == DefaultRewards(rewards) + (if x.isDefault then [x] else [])
    decreases |rewards|
  {
    if |rewards| == 0 {
      assert [x][1..] == [];
    } else {
      assert (rewards + [x])[1..] == rewards[1..] + [x];
      DefaultRewardsAppend(rewards[1..], x);
    }
  }
}

=== FILE: router.dfy ===
/** The request side of the server: `SimpleRouter.handle`, the static file
    mapping of `serveStaticFile`, the route handlers' field defaults and the
    server's preflight answer. The file system, the database and the session
    id generator are inputs. */
module Router {
  import opened Basics
  import opened Text
  import opened Js

  /** The handlers the server registers. `CatchAll` is the one registered
      under the literal key `WildcardKey`. */
  datatype Route = StartSession | RecordChoice | CompleteStory | TrackDownload | SessionStats | CatchAll

  /** Handlers by method, then by exact pathname. */
  datatype RouteTable = RouteTable(get: map<string, Route>, post: map<string, Route>)

  /** The key of the catch-all GET registration, star included. */
  const WildcardKey: string := "/api/*"

  const Routes: RouteTable := RouteTable(
    map["/api/story/stats" := SessionStats, WildcardKey := CatchAll],
    map["/api/session" := StartSession, "/api/story/choice" := RecordChoice,
        "/api/story/complete" := CompleteStory, "/api/rewards/download" := TrackDownload])

  /** A request body as received: nothing, text `JSON.parse` rejects, or a value. */
  datatype Body = EmptyBody | Malformed | Parsed(value: JsValue)

  /** A request after `url.parse(req.url, true)`: method (`verb`), pathname, query object and body. */
  datatype Request = Request(verb: string, pathname: string, query: map<string, JsValue>, body: Body)

  /** What `fs.readFile` hands to its callback. */
  datatype ReadResult = FileRead(content: string) | ReadFailed(code: string)

  /** What the awaited database call does: resolve with a value or throw. */
  datatype DbResult = DbDone(value: JsValue) | DbFailed

  /** Everything outside the router: the file read, the database outcome and
      the session id `Date.now()` and `Math.random()` would produce. */
  datatype World = World(file: ReadResult, db: DbResult, newSessionId: string)

  /** The database call a handler makes, with the arguments it passes. */
  datatype DbCall =
    | NoCall
    | TrackSession(newSessionId: string, playerName: JsValue)
    | SaveChoice(sessionId: JsValue, sceneId: JsValue, choiceText: JsValue, nextSceneId: JsValue, choiceOrder: JsValue)
    | SaveDownload(sessionId: JsValue, rewardId: JsValue, rewardTitle: JsValue)
    | FetchStats(sessionId: JsValue)

  /** A response body: raw text (a file, "OK", nothing) or a JSON value. */
  datatype Payload = Raw(text: string) | Json(value: JsValue)

  datatype Reply = Reply(status: nat, contentType: Option<string>, payload: Payload)

  /** A request is answered, with the database call made on the way, or the
      `handle` promise rejects and nothing is sent. */
  datatype Outcome = Answered(reply: Reply, call: DbCall) | Crashed

  const JsonType: string := "application/json"

  /** `sendJSON(res, data, status)`. */
  function SendJson(data: JsValue, status: nat): Reply
  {
    Reply(status, Some(JsonType), Json(data))
  }

  /** `sendError(res, status, message)`: the body is `{error: message}`. */
  function SendError(status: nat, message: string): Reply
  {
    Reply(status, Some(JsonType), Json(Obj(map["error" := Str(message)])))
  }

  /** A handler's own catch: status 500 and `{success: false, error}`. */
  function HandlerFailure(error: string): Reply
  {
    SendJson(Obj(map["success" := Bool(false), "error" := Str(error)]), 500)
  }

  /** A handler's success reply: `{success: true, message}`. */
  function HandlerSuccess(message: string): Reply
  {
    SendJson(Obj(map["success" := Bool(true), "message" := Str(message)]), 200)
  }

  /** The statistics sent when the database has none. */
  const DefaultStats: JsValue := Obj(map["totalSessions" := Num(0), "completedSessions" := Num(0)])

  /** The extension table; anything else is served as a byte stream. */
  const MimeTypes: map<string, string> := map[
    ".html" := "text/html", ".js" := "text/javascript", ".css" := "text/css",
    ".json" := "application/json", ".txt" := "text/plain"]

  const OctetStream: string := "application/octet-stream"

  /** `mimeTypes[ext] || 'application/octet-stream'`. */
  function MimeType(ext: string): (t: string)
    ensures t == OctetStream <==> ext !in MimeTypes
    ensures ext in MimeTypes ==> t == MimeTypes[ext]
  {
    if ext in MimeTypes then MimeTypes[ext] else OctetStream
  }

  /** The file a pathname names, relative to the working directory: the root
      is `index.html`, any other pathname loses its first character. */
  function StaticFile(pathname: string): (name: string)
    ensures pathname == "/" ==> name == "index.html"
    ensures pathname != "/" && StartsWith(pathname, "/") ==> "/" + name == pathname
  {
    if pathname == "/" then "index.html"
    else if |pathname| == 0 then ""
    else pathname[1..]
  }

  /** The path without its trailing slashes. */
  function StripTrailingSlashes(p: string): (q: string)
    ensures |q| <= |p| && q == p[..|q|]
    ensures q == [] || q[|q| - 1] != '/'
    ensures forall i :: |q| <= i < |p| ==> p[i] == '/'
  {
    if |p| > 0 && p[|p| - 1] == '/' then StripTrailingSlashes(p[..|p| - 1]) else p
  }

  /** What follows the last slash. */
  function AfterLastSlash(p: string): (b: string)
    ensures |b| <= |p| && b == p[|p| - |b|..]
    ensures '/' !in b
    ensures |b| < |p| ==> p[|p| - |b| - 1] == '/'
  {
    if |p| == 0 || p[|p| - 1] == '/' then []
    else
      var b := AfterLastSlash(p[..|p| - 1]) + [p[|p| - 1]];
      assert p[|p| - |b|..] == p[..|p| - 1][|p| - |b|..] + [p[|p| - 1]];
      b
  }

  /** The index of the last dot. */
  function LastDot(b: string): (k: Option<nat>)
    ensures k.None? <==> '.' !in b
    ensures k.Some? ==> k.value < |b| && b[k.value] == '.' && '.' !in b[k.value + 1..]
  {
    if |b| == 0 then None
    else if b[|b| - 1] == '.' then Some(|b| - 1)
    else
      var k := LastDot(b[..|b| - 1]);
      assert b == b[..|b| - 1] + [b[|b| - 1]];
      assert k.Some? ==> b[k.value + 1..] == b[..|b| - 1][k.value + 1..] + [b[|b| - 1]];
      k
  }

  /** The extension of one path segment: from its last dot to its end, and
      `""` when it has no dot, starts with its only dot as in `.profile`, or
      is `..`. */
  function SegmentExtname(b: string): (e: string)
    ensures e == [] || (e[0] == '.' && '.' !in e[1..])
    ensures |e| <= |b| && e == b[|b| - |e|..]
  {
    match LastDot(b)
    case None => []
    case Some(k) =>
      if k == 0 || b == ".." then []
      else
        assert b[k..][1..] == b[k + 1..];
        b[k..]
  }

  /** `e` is empty or a dot followed by neither dot nor slash, and ends `q`. */
  predicate ExtensionOf(e: string, q: string)
  {
    && (e == [] || (e[0] == '.' && '.' !in e[1..] && '/' !in e))
    && |e| <= |q| && e == q[|q| - |e|..]
  }

  /** Node's `path.extname`: the extension of the last path segment, with
      trailing slashes ignored. */
  function Extname(p: string): (ext: string)
    ensures ExtensionOf(ext, StripTrailingSlashes(p))
    decreases |p|
  {
    if |p| > 0 && p[|p| - 1] == '/' then Extname(p[..|p| - 1])
    else
      var b := AfterLastSlash(p);
      var e := SegmentExtname(b);
      SuffixOfSegment(p, b, e);
      e
  }

  /** The extension of the last segment is an extension of the path, and a
      suffix of it. */
  lemma SuffixOfSegment(q: string, b: string, e: string)
    requires |b| <= |q| && b == q[|q| - |b|..] && '/' !in b
    requires e == [] || (e[0] == '.' && '.' !in e[1..])
    requires |e| <= |b| && e == b[|b| - |e|..]
    ensures ExtensionOf(e, q)
  {
    assert forall c :: c in e ==> c in b;
    assert q[|q| - |e|..] == e;
  }

  lemma {:induction false} AfterLastSlashAppend(dir: string, name: string)
    requires dir == [] || dir[|dir| - 1] == '/'
    requires '/' !in name
    ensures AfterLastSlash(dir + name) == name
    decreases |name|
  {
    var p := dir + name;
    if |name| == 0 {
      assert p == dir;
    } else {
      var last := name[|name| - 1];
      var init := name[..|name| - 1];
      assert name == init + [last];
      assert p[|p| - 1] == last && last != '/';
      assert p[..|p| - 1] == dir + init;
      assert '/' !in init by {
        assert forall c :: c in init ==> c in name;
      }
      AfterLastSlashAppend(dir, init);
    }
  }

  /** The last dot of a stem followed by an extension is the extension's. */
  lemma LastDotOfExtension(stem: string, ext: string)
    requires |ext| > 0 && ext[0] == '.' && '.' !in ext[1..]
    ensures LastDot(stem + ext) == Some(|stem|)
  {
    var b := stem + ext;
    assert b[|stem|] == '.';
  }

  /** Extension round trip: a file name made of a stem and an extension, in
      any directory, has exactly that extension. */
  lemma {:induction false} ExtnameOfStemAndExtension(dir: string, stem: string, ext: string)
    requires dir == [] || dir[|dir| - 1] == '/'
    requires |stem| > 0 && '/' !in stem
    requires |ext| > 0 && ext[0] == '.' && '/' !in ext && '.' !in ext[1..]
    requires stem + ext != ".."
    ensures Extname(dir + stem + ext) == ext
  {
    var b := stem + ext;
    StemAndExtension(stem, ext);
    assert b != "..";
    assert dir + stem + ext == dir + b;
    assert |b| > 0;
    ExtnameFromParts(dir, b, |stem|);
  }

  lemma StemAndExtension(stem: string, ext: string)
    requires '/' !in stem
    requires |ext| > 0 && ext[0] == '.' && '/' !in ext && '.' !in ext[1..]
    ensures var b := stem + ext; '/' !in b && LastDot(b) == Some(|stem|) && b[|stem|..] == ext
  {
    var b := stem + ext;
    assert '/' !in b by {
      assert forall c :: c in b ==> c in stem || c in ext;
    }
    LastDotOfExtension(stem, ext);
    assert b[|stem|..] == ext;
  }

  lemma {:induction false} ExtnameFromParts(dir: string, b: string, k: nat)
    requires dir == [] || dir[|dir| - 1] == '/'
    requires |b| > 0 && '/' !in b
    requires LastDot(b) == Some(k) && k != 0 && b != ".."
    ensures Extname(dir + b) == b[k..]
  {
    assert (dir + b)[|dir + b| - 1] == b[|b| - 1];
    AfterLastSlashAppend(dir, b);
  }

  /** A name whose last segment has no dot gets no extension. */
  lemma {:induction false} NoDotNoExtension(dir: string, name: string)
    requires dir == [] || dir[|dir| - 1] == '/'
    requires |name| > 0 && '/' !in name && '.' !in name
    ensures Extname(dir + name) == ""
  {
    assert (dir + name)[|dir + name| - 1] == name[|name| - 1];
    AfterLastSlashAppend(dir, name);
  }

  /** A dot file such as `.profile`, whose only dot is its first character,
      and the name `..` have no extension. */
  lemma {:induction false} DotFileNoExtension(dir: string, name: string)
    requires dir == [] || dir[|dir| - 1] == '/'
    requires '/' !in name
    requires name == ".." || (|name| > 0 && name[0] == '.' && '.' !in name[1..])
    ensures Extname(dir + name) == ""
  {
    assert (dir + name)[|dir + name| - 1] == name[|name| - 1];
    AfterLastSlashAppend(dir, name);
    if name != ".." {
      LastDotOfExtension("", name);
      assert "" + name == name;
    }
  }

  /** The content type `serveStaticFile` sends for a pathname. */
  function ContentType(pathname: string): string
  {
    MimeType(Extname(StaticFile(pathname)))
  }

  /** `serveStaticFile`: the file's content with the type its extension
      selects; a missing file is 404 "File not found", any other read error
      500 "Server error". */
  function ServeStaticFile(pathname: string, file: ReadResult): (r: Reply)
    ensures r.status == 200 <==> file.FileRead?
    ensures file.FileRead? ==> r == Reply(200, Some(ContentType(pathname)), Raw(file.content))
    ensures file.ReadFailed? ==> r == SendError(if file.code == "ENOENT" then 404 else 500,
                                                if file.code == "ENOENT" then "File not found" else "Server error")
  {
    match file
    case FileRead(content) => Reply(200, Some(ContentType(pathname)), Raw(content))
    case ReadFailed(code) =>
      if code == "ENOENT" then SendError(404, "File not found") else SendError(500, "Server error")
  }

  /** The root serves `index.html` as HTML. */
  lemma RootIsHtml(pathname: string)
    requires pathname == "/"
    ensures ContentType(pathname) == "text/html"
  {
    RootFileExtension(pathname);
    HtmlType(Extname(StaticFile(pathname)));
  }

  lemma RootFileExtension(pathname: string)
    requires pathname == "/"
    ensures Extname(StaticFile(pathname)) == ".html"
  {
    var name := StaticFile(pathname);
    assert name == "" + "index" + ".html";
    ExtnameOfStemAndExtension("", "index", ".html");
  }

  lemma HtmlType(ext: string)
    requires ext == ".html"
    ensures MimeType(ext) == "text/html"
  {
    assert ext in MimeTypes;
  }

  /** The handler bodies. `data` is the parsed body (`{}` for GET and for an
      empty POST body), `query` the parsed query string. Reading a field of
      a `null` body throws inside the handler's `try`, so its catch answers. */
  function RunRoute(route: Route, data: JsValue, query: map<string, JsValue>, w: World): (o: Outcome)
    ensures o.Answered?
    ensures o.reply.status == 200 || o.reply.status == 500
    ensures o.reply.status == 500 <==> route != CompleteStory && route != CatchAll
                                         && (w.db.DbFailed? || (route != SessionStats && (data.Null? || data.Undefined?)))
  {
    match route
    case StartSession =>
      (match Get(data, "playerName")
       case None => Answered(HandlerFailure("Failed to start session"), NoCall)
       case Some(name) =>
         var call := TrackSession(w.newSessionId, Or(name, Str("Avantee")));
         if w.db.DbFailed? then Answered(HandlerFailure("Failed to start session"), call)
         else Answered(SendJson(Obj(map["success" := Bool(true), "sessionId" := Str(w.newSessionId),
                                        "message" := Str("Story session started successfully")]), 200), call))
    case RecordChoice =>
      if data.Null? || data.Undefined? then Answered(HandlerFailure("Failed to record choice"), NoCall)
      else
        var call := SaveChoice(Get(data, "sessionId").value, Get(data, "sceneId").value, Get(data, "choiceText").value,
                               Get(data, "nextSceneId").value, Or(Get(data, "choiceOrder").value, Num(1)));
        if w.db.DbFailed? then Answered(HandlerFailure("Failed to record choice"), call)
        else Answered(HandlerSuccess("Choice recorded successfully"), call)
    case CompleteStory => Answered(HandlerSuccess("Story completed successfully"), NoCall)
    case TrackDownload =>
      if data.Null? || data.Undefined? then Answered(HandlerFailure("Failed to track download"), NoCall)
      else
        var call := SaveDownload(Get(data, "sessionId").value, Get(data, "rewardId").value, Get(data, "rewardTitle").value);
        if w.db.DbFailed? then Answered(HandlerFailure("Failed to track download"), call)
        else Answered(HandlerSuccess("Reward download tracked successfully"), call)
    case SessionStats =>
      var call := FetchStats(Get(Obj(query), "sessionId").value);
      (match w.db
       case DbFailed => Answered(HandlerFailure("Failed to get stats"), call)
       case DbDone(v) => Answered(SendJson(Obj(map["success" := Bool(true), "stats" := Or(v, DefaultStats)]), 200), call))
    case CatchAll => Answered(Reply(200, None, Raw("OK")), NoCall)
  }

  /** `handle` past the static-file branch, for a method whose table exists. */
  function RouteIn(table: map<string, Route>, req: Request, w: World): (o: Outcome)
    ensures req.pathname !in table ==> o == Answered(SendError(404, "Not found"), NoCall)
    ensures req.pathname in table && req.verb == "POST" && req.body.Malformed? ==>
      o == Answered(SendError(400, "Invalid JSON"), NoCall)
    ensures o.Answered?
  {
    if req.pathname !in table then Answered(SendError(404, "Not found"), NoCall)
    else
      var route := table[req.pathname];
      if req.verb == "POST" then
        (match req.body
         case Malformed => Answered(SendError(400, "Invalid JSON"), NoCall)
         case EmptyBody => RunRoute(route, EmptyObject, req.query, w)
         case Parsed(v) => RunRoute(route, v, req.query, w))
      else RunRoute(route, EmptyObject, req.query, w)
  }

  /** A GET outside `/api/` is a static file request. */
  predicate IsStatic(req: Request)
  {
    req.verb == "GET" && !StartsWith(req.pathname, "/api/")
  }

  /** `handle` as written: `this.routes[method]` is undefined for any method
      other than GET and POST, and indexing it throws inside the async
      function, so the promise rejects and no response is ever sent. */
  function HandleAsWritten(req: Request, w: World): (o: Outcome)
    ensures IsStatic(req) ==> o == Answered(ServeStaticFile(req.pathname, w.file), NoCall)
    ensures o.Crashed? <==> req.verb != "GET" && req.verb != "POST"
  {
    if IsStatic(req) then Answered(ServeStaticFile(req.pathname, w.file), NoCall)
    else if req.verb == "GET" then RouteIn(Routes.get, req, w)
    else if req.verb == "POST" then RouteIn(Routes.post, req, w)
    else Crashed
  }

  /** `handle` with the missing method table read as empty, which is what the
      fall-through to 404 "Not found" evidently intends. */
  function Handle(req: Request, w: World): (o: Outcome)
    ensures o.Answered?
    ensures IsStatic(req) ==> o == Answered(ServeStaticFile(req.pathname, w.file), NoCall)
    ensures req.verb != "GET" && req.verb != "POST" ==> o == Answered(SendError(404, "Not found"), NoCall)
  {
    if IsStatic(req) then Answered(ServeStaticFile(req.pathname, w.file), NoCall)
    else if req.verb == "GET" then RouteIn(Routes.get, req, w)
    else if req.verb == "POST" then RouteIn(Routes.post, req, w)
    else RouteIn(map[], req, w)
  }

  /** The preflight answer: 200, no type, empty body. */
  const PreflightReply: Reply := Reply(200, None, Raw(""))

  /** The server callback as written: OPTIONS is answered before routing. */
  function ServeAsWritten(req: Request, w: World): (o: Outcome)
    ensures req.verb == "OPTIONS" ==> o == Answered(PreflightReply, NoCall)
    ensures o.Crashed? <==> req.verb != "GET" && req.verb != "POST" && req.verb != "OPTIONS"
  {
    if req.verb == "OPTIONS" then Answered(PreflightReply, NoCall) else HandleAsWritten(req, w)
  }

  /** The server callback with the corrected `handle`: every request is answered. */
  function Serve(req: Request, w: World): (o: Outcome)
    ensures o.Answered?
    ensures req.verb == "OPTIONS" ==> o == Answered(PreflightReply, NoCall)
    ensures req.verb == "GET" || req.verb == "POST" || req.verb == "OPTIONS" ==> o == ServeAsWritten(req, w)
  {
    if req.verb == "OPTIONS" then Answered(PreflightReply, NoCall) else Handle(req, w)
  }

  /** A PUT to a registered path gets no response at all. */
  lemma PutCrashes(w: World)
    ensures ServeAsWritten(Request("PUT", "/api/session", map[], EmptyBody), w) == Crashed
    ensures Serve(Request("PUT", "/api/session", map[], EmptyBody), w) == Answered(SendError(404, "Not found"), NoCall)
  {
  }

  /** Static files win over routes: a GET outside `/api/` reaches the file
      system whatever the route table holds, and a GET inside `/api/` never does. */
  lemma StaticDecision(req: Request, w: World)
    requires req.verb == "GET"
    ensures !StartsWith(req.pathname, "/api/") ==> Serve(req, w) == Answered(ServeStaticFile(req.pathname, w.file), NoCall)
    ensures StartsWith(req.pathname, "/api/") ==> Serve(req, w) == RouteIn(Routes.get, req, w)
  {
  }

  /** `WildcardKey` is a literal key: a GET of any other unregistered
      `/api/` path is 404, only the wildcard path itself gets the "OK" reply. */
  lemma WildcardIsLiteral(w: World, q: map<string, JsValue>)
    ensures Serve(Request("GET", "/api/anything", q, EmptyBody), w) == Answered(SendError(404, "Not found"), NoCall)
    ensures Serve(Request("GET", WildcardKey, q, EmptyBody), w) == Answered(Reply(200, None, Raw("OK")), NoCall)
  {
    assert StartsWith("/api/anything", "/api/");
    assert StartsWith(WildcardKey, "/api/");
  }

  /** A new session is tracked with the posted `playerName` when it is
      truthy; a missing, `null`, `""` or otherwise falsy name, and an empty
      body (read as `{}`), get the default name. */
  lemma SessionNameDefault(w: World, fields: map<string, JsValue>)
    requires w.db.DbDone?
    ensures var o := Serve(Request("POST", "/api/session", map[], Parsed(Obj(fields))), w);
            o.reply.status == 200
            && o.call == TrackSession(w.newSessionId,
                                      if "playerName" in fields && Truthy(fields["playerName"])
                                      then fields["playerName"] else Str("Avantee"))
    ensures Serve(Request("POST", "/api/session", map[], EmptyBody), w).call
            == TrackSession(w.newSessionId, Str("Avantee"))
  {
    var req := Request("POST", "/api/session", map[], Parsed(Obj(fields)));
    var empty := Request("POST", "/api/session", map[], EmptyBody);
    assert Routes.post["/api/session"] == StartSession;
    assert Serve(req, w) == RouteIn(Routes.post, req, w);
    assert RouteIn(Routes.post, req, w) == RunRoute(StartSession, Obj(fields), map[], w);
    assert Serve(empty, w) == RouteIn(Routes.post, empty, w);
    assert RouteIn(Routes.post, empty, w) == RunRoute(StartSession, EmptyObject, map[], w);
  }

  /** A falsy `choiceOrder`, 0 and a missing field included, is recorded as 1,
      a truthy one as sent. */
  lemma ChoiceOrderDefault(w: World, fields: map<string, JsValue>)
    requires w.db.DbDone?
    ensures var o := Serve(Request("POST", "/api/story/choice", map[], Parsed(Obj(fields))), w);
            o.call.SaveChoice? && o.reply.status == 200
            && o.call.choiceOrder == (if "choiceOrder" in fields && Truthy(fields["choiceOrder"]) then fields["choiceOrder"] else Num(1))
  {
    var req := Request("POST", "/api/story/choice", map[], Parsed(Obj(fields)));
    assert Routes.post["/api/story/choice"] == RecordChoice;
    assert Serve(req, w) == RouteIn(Routes.post, req, w);
    assert RouteIn(Routes.post, req, w) == RunRoute(RecordChoice, Obj(fields), map[], w);
  }

  /** Statistics default: no statistics from the database become zeros. */
  lemma StatsDefault(w: World, q: map<string, JsValue>)
    requires w.db.DbDone? && !Truthy(w.db.value)
    ensures Serve(Request("GET", "/api/story/stats", q, EmptyBody), w).reply.payload
            == Json(Obj(map["success" := Bool(true), "stats" := DefaultStats]))
  {
    assert StartsWith("/api/story/stats", "/api/");
  }
}

=== FILE: scenarios.dfy ===
/** Concrete play-throughs of a three-node story: scene A offers a choice to
    scene B, scene B offers a choice to ending E1, which grants reward r1. */
module Scenarios {
  import opened Basics
  import opened Story
  import opened Validation
  import opened Rewards
  import opened Navigation

  const ToB: Choice := Choice("Go on", Some("B"), None)
  const ToE1: Choice := Choice("Finish", None, Some("E1"))
  const A: Scene := Scene("A", "Start", "Once.", true, Some([ToB]), None)
  const B: Scene := Scene("B", "Middle", "Then.", false, Some([ToE1]), None)
  const E1: Ending := Ending("E1", "End", "Fin.", Some(["r1"]))
  const R1: Reward := Reward("r1", "Letter", "A letter.", "letter.txt", false)
  const ThreeNodes: Doc := Doc(Items([A, B]), Items([E1]), Items([R1]))

  const Begin: Event := Start(Body(Some(ThreeNodes)), SessionGranted(Some("s1")))

  const AtA: NavState := Initial.(story := Some(ThreeNodes), current := Some(A), page := StoryPage,
                                  session := Some("s1"))
  const AtB: NavState := AtA.(current := Some(B), history := [A], choiceOrder := 1)
  const AtE1: NavState := AtB.(page := EndPage(E1, [R1]), choiceOrder := 2)

  lemma FindB()
    ensures SceneById([A, B], "B") == Some(B)
  {
    assert A.id != "B" && [A, B][1].id == "B";
  }

  lemma StartEntersA()
    ensures Dispatch(Initial, Begin) == AtA.(loading := true, inFlight := Some(A))
  {
    assert StartScene([A, B]) == Some(A);
    assert Validate(Some(ThreeNodes)).Accepted?;
    assert SceneById([A, B], "A") == Some(A);
  }

  /** One event, then the rest. */
  lemma RunStep(s: NavState, e: Event, rest: seq<Event>)
    ensures Run(s, [e] + rest) == Run(Dispatch(s, e), rest)
  {
    assert ([e] + rest)[0] == e && ([e] + rest)[1..] == rest;
  }

  const Opening: seq<Event> := [Begin, LoadSettled]
  const ToMiddle: seq<Event> := [Choose(ToB), PauseOver(0), LoadSettled]
  const ToEnd: seq<Event> := [Choose(ToE1), PauseOver(0)]

  lemma SettlesOnA()
    ensures Dispatch(AtA.(loading := true, inFlight := Some(A)), LoadSettled) == AtA
  {
  }

  lemma OpeningShowsA()
    ensures Run(Initial, Opening) == AtA
  {
    assert Opening == [Begin] + ([LoadSettled] + []);
    RunStep(Initial, Begin, [LoadSettled] + []);
    StartEntersA();
    RunStep(AtA.(loading := true, inFlight := Some(A)), LoadSettled, []);
    SettlesOnA();
  }

  lemma ChoosingToBEntersB()
    ensures Dispatch(Dispatch(AtA, Choose(ToB)), PauseOver(0)) == AtB.(loading := true, inFlight := Some(B))
  {
    FindB();
  }

  lemma SettlesOnB()
    ensures Dispatch(AtB.(loading := true, inFlight := Some(B)), LoadSettled) == AtB
  {
  }

  lemma ToMiddleShowsB()
    ensures Run(AtA, ToMiddle) == AtB
  {
    var c, p := Choose(ToB), PauseOver(0);
    assert ToMiddle == [c] + ([p] + ([LoadSettled] + []));
    RunStep(AtA, c, [p] + ([LoadSettled] + []));
    RunStep(Dispatch(AtA, c), p, [LoadSettled] + []);
    ChoosingToBEntersB();
    RunStep(AtB.(loading := true, inFlight := Some(B)), LoadSettled, []);
    SettlesOnB();
  }

  lemma EndingE1Offers()
    ensures EndingById([E1], "E1") == Some(E1)
    ensures SelectRewards(["r1"], [R1]) == [R1]
  {
    assert RewardById([R1], "r1") == Some(R1);
  }

  lemma ChoosingToE1Ends()
    ensures Dispatch(Dispatch(AtB, Choose(ToE1)), PauseOver(0)) == AtE1
  {
    EndingE1Offers();
  }

  lemma ToEndShowsE1()
    ensures Run(AtB, ToEnd) == AtE1
  {
    var c, p := Choose(ToE1), PauseOver(0);
    assert ToEnd == [c] + ([p] + []);
    RunStep(AtB, c, [p] + []);
    RunStep(Dispatch(AtB, c), p, []);
    ChoosingToE1Ends();
  }

  /** Starting, choosing B, then choosing E1 ends on E1 with its one reward.
      History holds only A: entering B records A, and reaching an ending
      records nothing. Each of the two choices moved the counter. */
  lemma PlayThrough()
    ensures Run(Initial, Opening + ToMiddle + ToEnd) == AtE1
    ensures AtE1.history == [A] && AtE1.choiceOrder == 2 && AtE1.page == EndPage(E1, [R1])
  {
    RunConcat(Initial, Opening + ToMiddle, ToEnd);
    RunConcat(Initial, Opening, ToMiddle);
    OpeningShowsA();
    ToMiddleShowsB();
    ToEndShowsE1();
  }

  const Queued: NavState := AtA.(choiceOrder := 2, pending := [ToB, ToB])
  const EnteringB: NavState := AtB.(choiceOrder := 2, loading := true, inFlight := Some(B), pending := [ToB])

  lemma TwoClicksQueued()
    ensures Dispatch(Dispatch(AtA, Choose(ToB)), Choose(ToB)) == Queued
  {
  }

  lemma FirstPauseEntersB()
    ensures Dispatch(Queued, PauseOver(0)) == EnteringB
  {
    FindB();
  }

  lemma SecondPauseTurnedAway()
    ensures Dispatch(EnteringB, PauseOver(0)) == EnteringB.(pending := [])
  {
    FindB();
    assert [ToB][..0] + [ToB][1..] == [];
  }

  /** Two clicks on the same choice before the first pause ends are both
      accepted and both counted, since nothing sets `loading` until the
      first navigation starts the scene load; the second navigation is then
      turned away by that load, so B is entered once. */
  lemma DoubleClickCountedTwiceEnteredOnce()
    ensures var s := Run(AtA, [Choose(ToB), Choose(ToB), PauseOver(0), PauseOver(0)]);
            s.choiceOrder == 2 && s.history == [A] && s.current == Some(B) && s.loading && s.pending == []
  {
    var c, p := Choose(ToB), PauseOver(0);
    assert [c, c, p, p] == [c] + ([c] + ([p] + ([p] + [])));
    RunStep(AtA, c, [c] + ([p] + ([p] + [])));
    RunStep(Dispatch(AtA, c), c, [p] + ([p] + []));
    TwoClicksQueued();
    RunStep(Queued, p, [p] + []);
    FirstPauseEntersB();
    RunStep(EnteringB, p, []);
    SecondPauseTurnedAway();
  }

  /** A click while B is loading is ignored altogether. */
  lemma ClickDuringLoadIgnored()
    ensures Run(AtB.(loading := true, inFlight := Some(B)), [Choose(ToE1)]) == AtB.(loading := true, inFlight := Some(B))
  {
  }
}

=== FILE: story.dfy ===
/** The story document: scenes, choices, endings and rewards as loaded from
    `story.json`, and the first-match lookups the engine performs on them. */
module Story {
  import opened Basics

  /** An option offered by a scene. `nextScene` and `ending` are optional ids. */
  datatype Choice = Choice(text: string, nextScene: Option<string>, ending: Option<string>)

  datatype Scene = Scene(
    id: string,
    title: string,
    content: string,
    isStart: bool,
    choices: Option<seq<Choice>>,
    ending: Option<string>)

  datatype Ending = Ending(id: string, title: string, message: string, rewards: Option<seq<string>>)

  datatype Reward = Reward(id: string, title: string, description: string, file: string, isDefault: bool)

  /** A top-level field of the parsed document, as the engine can observe it:
      a falsy value (missing, `null`, `0`, `""`, `false`), some other
      non-array value, or an array. */
  datatype Field<T> = Absent | NotArray | Items(items: seq<T>)

  /** The parsed document held in `storyData`. It is kept even when validation
      rejects it, so its fields need not be arrays. */
  datatype Doc = Doc(scenes: Field<Scene>, endings: Field<Ending>, rewards: Field<Reward>)

  /** JavaScript truthiness of an optional id: present and not the empty string. */
  predicate Given(id: Option<string>)
  {
    id.Some? && id.value != ""
  }

  /** The ids a choice or ending lists, `[]` when the list is missing (`ending.rewards || []`). */
  function RewardIdsOf(e: Ending): seq<string>
  {
    match e.rewards
    case None => []
    case Some(ids) => ids
  }

  /** `scenes.find(s => s.id === id)`: with duplicate ids, the first one wins. */
  function SceneById(scenes: seq<Scene>, id: string): (r: Option<Scene>)
    ensures r.Some? ==> r.value in scenes && r.value.id == id
    ensures r.None? <==> forall j :: 0 <= j < |scenes| ==> scenes[j].id != id
    ensures r.Some? ==> exists j :: 0 <= j < |scenes| && scenes[j] == r.value
                                   && forall i :: 0 <= i < j ==> scenes[i].id != id
  {
    Find(scenes, (s: Scene) => s.id == id)
  }

  /** `endings.find(e => e.id === id)`: with duplicate ids, the first one wins. */
  function EndingById(endings: seq<Ending>, id: string): (r: Option<Ending>)
    ensures r.Some? ==> r.value in endings && r.value.id == id
    ensures r.None? <==> forall j :: 0 <= j < |endings| ==> endings[j].id != id
    ensures r.Some? ==> exists j :: 0 <= j < |endings| && endings[j] == r.value
                                   && forall i :: 0 <= i < j ==> endings[i].id != id
  {
    Find(endings, (e: Ending) => e.id == id)
  }

  /** `rewards.find(r => r.id === id)`: with duplicate ids, the first one wins. */
  function RewardById(rewards: seq<Reward>, id: string): (r: Option<Reward>)
    ensures r.Some? ==> r.value in rewards && r.value.id == id
    ensures r.None? <==> forall j :: 0 <= j < |rewards| ==> rewards[j].id != id
    ensures r.Some? ==> exists j :: 0 <= j < |rewards| && rewards[j] == r.value
                                   && forall i :: 0 <= i < j ==> rewards[i].id != id
  {
    Find(rewards, (x: Reward) => x.id == id)
  }

  /** `scenes.find(scene => scene.isStart)`: the first scene flagged as a start,
      in document order; later flagged scenes are ignored. */
  function StartScene(scenes: seq<Scene>): (r: Option<Scene>)
    ensures r.None? <==> forall j :: 0 <= j < |scenes| ==> !scenes[j].isStart
    ensures r.Some? ==> exists j :: 0 <= j < |scenes| && scenes[j] == r.value && r.value.isStart
                                   && forall i :: 0 <= i < j ==> !scenes[i].isStart
  {
    Find(scenes, (s: Scene) => s.isStart)
  }

  function SceneIds(scenes: seq<Scene>): set<string>
  {
    set s | s in scenes :: s.id
  }

  function EndingIds(endings: seq<Ending>): set<string>
  {
    set e | e in endings :: e.id
  }

  /** Scene ids are pairwise distinct (the document promises this; nothing checks it). */
  predicate UniqueSceneIds(scenes: seq<Scene>)
  {
    forall i, j :: 0 <= i < j < |scenes| ==> scenes[i].id != scenes[j].id
  }
}

=== FILE: text.dfy ===
/** The JavaScript string operations the engine and the router rely on:
    `includes`, `startsWith`, `trim`, `split('\n')` and decimal rendering of
    integers in template literals. Strings are sequences of characters. */
module Text {

  /** `t` occurs in `s` starting at index `i`. */
  ghost predicate OccursAt(s: string, t: string, i: int)
  {
    0 <= i && i + |t| <= |s| && s[i..i + |t|] == t
  }

  /** `t` is a substring of `s`: what `s.includes(t)` means. */
  ghost predicate Contains(s: string, t: string)
  {
    exists i :: OccursAt(s, t, i)
  }

  lemma ShiftOccurrence(s: string, t: string)
    requires |s| >= |t| && s[..|t|] != t
    ensures Contains(s, t) <==> Contains(s[1..], t)
  {
    if Contains(s, t) {
      var i :| OccursAt(s, t, i);
      assert i != 0;
      assert s[1..][i - 1..i - 1 + |t|] == s[i..i + |t|];
      assert OccursAt(s[1..], t, i - 1);
    }
    if Contains(s[1..], t) {
      var i :| OccursAt(s[1..], t, i);
      assert s[i + 1..i + 1 + |t|] == s[1..][i..i + |t|];
      assert OccursAt(s, t, i + 1);
    }
  }

  /** `s.includes(t)`, computed by scanning left to right. */
  function Includes(s: string, t: string): (b: bool)
    ensures b <==> Contains(s, t)
    decreases |s|
  {
    if |s| < |t| then
      assert forall i :: !OccursAt(s, t, i);
      false
    else if s[..|t|] == t then
      assert OccursAt(s, t, 0);
      true
    else
      ShiftOccurrence(s, t);
      Includes(s[1..], t)
  }

  lemma ContainsInLeft(a: string, b: string, t: string)
    requires Contains(a, t)
    ensures Contains(a + b, t)
  {
    var i :| OccursAt(a, t, i);
    assert (a + b)[i..i + |t|] == a[i..i + |t|];
    assert OccursAt(a + b, t, i);
  }

  /** `s.startsWith(prefix)`. */
  predicate StartsWith(s: string, prefix: string)
  {
    |prefix| <= |s| && s[..|prefix|] == prefix
  }

  // ---------------------------------------------------------------------
  // Decimal rendering of a non-negative integer (`${n}` in a template)

  function DigitChar(d: nat): char
    requires d < 10
  {
    "0123456789"[d]
  }

  function DigitValue(c: char): nat
  {
    if '0' <= c <= '9' then (c as int - '0' as int) as nat else 0
  }

  predicate IsDigit(c: char)
  {
    '0' <= c <= '9'
  }

  /** Reads a string of digits back as a number (the left inverse of `Decimal`). */
  function ParseDecimal(s: string): nat
  {
    if |s| == 0 then 0 else ParseDecimal(s[..|s| - 1]) * 10 + DigitValue(s[|s| - 1])
  }

  /** The canonical decimal spelling of `n`: digits only, no leading zero. */
  function Decimal(n: nat): (r: string)
    ensures |r| >= 1
    ensures forall i :: 0 <= i < |r| ==> IsDigit(r[i])
    ensures |r| > 1 ==> r[0] != '0'
    ensures ParseDecimal(r) == n
    decreases n
  {
    if n < 10 then
      [DigitChar(n)]
    else
      var prefix := Decimal(n / 10);
      var r := prefix + [DigitChar(n % 10)];
      assert r[..|r| - 1] == prefix;
      r
  }

  // ---------------------------------------------------------------------
  // String.prototype.trim

  /** The characters `trim` removes: ECMAScript WhiteSpace and LineTerminator. */
  const JsSpaces: set<char> := {'\t', '\n', '\U{B}', '\U{C}', '\r', ' ', '\U{A0}', '\U{1680}',
    '\U{2000}', '\U{2001}', '\U{2002}', '\U{2003}', '\U{2004}', '\U{2005}', '\U{2006}',
    '\U{2007}', '\U{2008}', '\U{2009}', '\U{200A}', '\U{2028}', '\U{2029}', '\U{202F}',
    '\U{205F}', '\U{3000}', '\U{FEFF}'}

  predicate IsJsSpace(c: char)
  {
    c in JsSpaces
  }

  predicate AllSpace(s: string)
  {
    forall i :: 0 <= i < |s| ==> IsJsSpace(s[i])
  }

  /** A concatenation is blank exactly when both parts are. */
  lemma AllSpaceAppend(a: string, b: string)
    ensures AllSpace(a + b) <==> AllSpace(a) && AllSpace(b)
  {
    if AllSpace(a + b) {
      assert forall i :: 0 <= i < |a| ==> a[i] == (a + b)[i];
      assert forall i :: 0 <= i < |b| ==> b[i] == (a + b)[|a| + i];
    }
  }

  /** Drops trailing whitespace; what is left is a prefix of `s`. */
  function TrimEnd(s: string): (r: string)
    ensures |r| <= |s| && r == s[..|r|]
    ensures AllSpace(s[|r|..])
    ensures r == [] || !IsJsSpace(r[|r| - 1])
    decreases |s|
  {
    if |s| > 0 && IsJsSpace(s[|s| - 1]) then
      var r := TrimEnd(s[..|s| - 1]);
      BlankTail(s, r);
      r
    else
      assert s[|s|..] == [];
      s
  }

  /** A prefix of `s` without its last character followed by blanks is a prefix
      of `s` followed by blanks when that last character is blank. */
  lemma BlankTail(s: string, r: string)
    requires |s| > 0 && IsJsSpace(s[|s| - 1])
    requires |r| <= |s| - 1 && r == s[..|s| - 1][..|r|] && AllSpace(s[..|s| - 1][|r|..])
    ensures r == s[..|r|] && AllSpace(s[|r|..])
  {
    assert s[|r|..] == s[..|s| - 1][|r|..] + [s[|s| - 1]];
    AllSpaceAppend(s[..|s| - 1][|r|..], [s[|s| - 1]]);
  }

  /** `r` is a slice of `s` with only whitespace before and after it. */
  ghost predicate BetweenBlanks(s: string, r: string)
  {
    exists i :: OccursAt(s, r, i) && AllSpace(s[..i]) && AllSpace(s[i + |r|..])
  }

  /** `s.trim()`: the slice of `s` between its leading and trailing whitespace.
      Leading whitespace is dropped one character at a time, then the rest is
      trimmed at its end. */
  function Trim(s: string): (r: string)
    ensures BetweenBlanks(s, r)
    ensures r == [] || (!IsJsSpace(r[0]) && !IsJsSpace(r[|r| - 1]))
    ensures r == [] <==> AllSpace(s)
    decreases |s|
  {
    if |s| > 0 && IsJsSpace(s[0]) then
      var r := Trim(s[1..]);
      BlankHeadKeepsTrim(s, r);
      r
    else
      var r := TrimEnd(s);
      TrimEndOfUnblankStart(s, r);
      r
  }

  /** A blank first character joins the whitespace before the trimmed slice. */
  lemma BlankHeadKeepsTrim(s: string, r: string)
    requires |s| > 0 && IsJsSpace(s[0])
    requires BetweenBlanks(s[1..], r) && (r == [] <==> AllSpace(s[1..]))
    ensures BetweenBlanks(s, r)
    ensures r == [] <==> AllSpace(s)
  {
    BlankHeadKeepsSlice(s, r);
    assert s == [s[0]] + s[1..];
    AllSpaceAppend([s[0]], s[1..]);
  }

  lemma BlankHeadKeepsSlice(s: string, r: string)
    requires |s| > 0 && IsJsSpace(s[0]) && BetweenBlanks(s[1..], r)
    ensures BetweenBlanks(s, r)
  {
    var t := s[1..];
    var i :| OccursAt(t, r, i) && AllSpace(t[..i]) && AllSpace(t[i + |r|..]);
    assert OccursAt(s, r, i + 1) by {
      assert s[i + 1..i + 1 + |r|] == t[i..i + |r|];
    }
    assert AllSpace(s[..i + 1]) by {
      assert s[..i + 1] == [s[0]] + t[..i];
      AllSpaceAppend([s[0]], t[..i]);
    }
    assert AllSpace(s[i + 1 + |r|..]) by {
      assert s[i + 1 + |r|..] == t[i + |r|..];
    }
  }

  /** When `s` does not start with whitespace, trimming its end trims it. */
  lemma TrimEndOfUnblankStart(s: string, r: string)
    requires s == [] || !IsJsSpace(s[0])
    requires |r| <= |s| && r == s[..|r|] && AllSpace(s[|r|..]) && (r == [] || !IsJsSpace(r[|r| - 1]))
    ensures BetweenBlanks(s, r)
    ensures r == [] || (!IsJsSpace(r[0]) && !IsJsSpace(r[|r| - 1]))
    ensures r == [] <==> AllSpace(s)
  {
    assert s[0..|r|] == r && s[..0] == [] && s[0 + |r|..] == s[|r|..];
    assert OccursAt(s, r, 0);
    if r == [] {
      assert s[|r|..] == s;
    } else {
      assert r[0] == s[0];
    }
  }

  // ---------------------------------------------------------------------
  // String.prototype.split('\n') and its inverse join('\n')

  /** `parts.join('\n')`. */
  function JoinLines(parts: seq<string>): string
    requires |parts| >= 1
  {
    if |parts| == 1 then parts[0] else parts[0] + "\n" + JoinLines(parts[1..])
  }

  /** `s.split('\n')`: always at least one piece, none holds a line feed,
      and joining the pieces gives `s` back. */
  function SplitLines(s: string): (parts: seq<string>)
    ensures |parts| >= 1
    ensures forall i :: 0 <= i < |parts| ==> '\n' !in parts[i]
    ensures JoinLines(parts) == s
    decreases |s|
  {
    if |s| == 0 then
      [""]
    else
      var rest := SplitLines(s[1..]);
      if s[0] == '\n' then
        assert s == "\n" + s[1..];
        [""] + rest
      else
        var parts := [[s[0]] + rest[0]] + rest[1..];
        assert parts[1..] == rest[1..];
        if |rest| == 1 then
          parts
        else
          assert JoinLines(rest) == rest[0] + "\n" + JoinLines(rest[1..]);
          assert JoinLines(parts) == [s[0]] + (rest[0] + "\n" + JoinLines(rest[1..]));
          parts
  }

  /** Appending a line after a line feed appends exactly one piece. */
  lemma {:induction false} SplitAppendLine(s: string, line: string)
    requires '\n' !in line
    ensures SplitLines(s + "\n" + line) == SplitLines(s) + [line]
    decreases |s|
  {
    if |s| == 0 {
      assert "" + "\n" + line == "\n" + line;
      SplitSingleLine(line);
      assert ("\n" + line)[1..] == line;
    } else {
      assert (s + "\n" + line)[1..] == s[1..] + "\n" + line;
      SplitAppendLine(s[1..], line);
    }
  }

  /** Text without a line feed splits into itself. */
  lemma {:induction false} SplitSingleLine(line: string)
    requires '\n' !in line
    ensures SplitLines(line) == [line]
    decreases |line|
  {
    if |line| > 0 {
      assert line[0] in line;
      assert forall c :: c in line[1..] ==> c in line;
      SplitSingleLine(line[1..]);
      assert [line[0]] + line[1..] == line;
    }
  }
}

=== FILE: validation.dfy ===
/** `validateStoryData`: the structural checks that decide whether a parsed
    document is accepted, and the advisory warnings about choices that point
    at ids the document does not define. */
module Validation {
  import opened Basics
  import opened Story

  /** Why a document is rejected, in the order the checks run. */
  datatype Rejection =
    | NullDocument
    | NoScenesArray
    | NoEndingsArray
    | NoRewardsArray
    | NoStartScene

  /** A dangling reference found in choice `index` of scene `sceneId`. */
  datatype Warning =
    | UnknownScene(sceneId: string, index: nat, target: string)
    | UnknownEnding(sceneId: string, index: nat, target: string)

  datatype Verdict = Rejected(reason: Rejection) | Accepted(warnings: seq<Warning>)

  /** The message of the `Error` thrown for each rejection. */
  function RejectionText(r: Rejection): string
  {
    match r
    case NullDocument => "Story data is null or undefined"
    case NoScenesArray => "Story data must contain a scenes array"
    case NoEndingsArray => "Story data must contain an endings array"
    case NoRewardsArray => "Story data must contain a rewards array"
    case NoStartScene => "Story must have a scene marked as starting scene"
  }

  /** Whether choice `c` is the one warning `w` complains about. */
  predicate Dangles(c: Choice, w: Warning, sceneIds: set<string>, endingIds: set<string>)
  {
    match w
    case UnknownScene(_, _, t) => Given(c.nextScene) && c.nextScene.value == t && t !in sceneIds
    case UnknownEnding(_, _, t) => Given(c.ending) && c.ending.value == t && t !in endingIds
  }

  function ChoiceWarnings(sceneId: string, index: nat, c: Choice, sceneIds: set<string>, endingIds: set<string>): seq<Warning>
  {
    (if Given(c.nextScene) && c.nextScene.value !in sceneIds then [UnknownScene(sceneId, index, c.nextScene.value)] else [])
    + (if Given(c.ending) && c.ending.value !in endingIds then [UnknownEnding(sceneId, index, c.ending.value)] else [])
  }

  function SceneWarnings(sc: Scene, sceneIds: set<string>, endingIds: set<string>): seq<Warning>
  {
    match sc.choices
    case None => []
    case Some(cs) =>
      Concat(seq(|cs|, i requires 0 <= i < |cs| => ChoiceWarnings(sc.id, i, cs[i], sceneIds, endingIds)))
  }

  /** Every warning the scene loop logs, scene by scene and choice by choice. */
  function DocumentWarnings(scenes: seq<Scene>, endings: seq<Ending>): seq<Warning>
  {
    var sceneIds := SceneIds(scenes);
    var endingIds := EndingIds(endings);
    Concat(seq(|scenes|, k requires 0 <= k < |scenes| => SceneWarnings(scenes[k], sceneIds, endingIds)))
  }

  /** `validateStoryData`. The checks run in a fixed order and the first
      failing one decides the rejection: a missing document, then each of the
      three arrays, then the start scene, so an empty `scenes` array is
      rejected only for lacking a start. Dangling choice targets never reject. */
  function Validate(doc: Option<Doc>): (v: Verdict)
    ensures v == Rejected(NullDocument) <==> doc.None?
    ensures v == Rejected(NoScenesArray) <==> doc.Some? && !doc.value.scenes.Items?
    ensures v == Rejected(NoEndingsArray) <==>
      doc.Some? && doc.value.scenes.Items? && !doc.value.endings.Items?
    ensures v == Rejected(NoRewardsArray) <==>
      doc.Some? && doc.value.scenes.Items? && doc.value.endings.Items? && !doc.value.rewards.Items?
    ensures v == Rejected(NoStartScene) <==>
      doc.Some? && doc.value.scenes.Items? && doc.value.endings.Items? && doc.value.rewards.Items?
      && forall j :: 0 <= j < |doc.value.scenes.items| ==> !doc.value.scenes.items[j].isStart
    ensures v.Accepted? ==>
      doc.Some? && doc.value.scenes.Items? && doc.value.endings.Items? && doc.value.rewards.Items?
      && v.warnings == DocumentWarnings(doc.value.scenes.items, doc.value.endings.items)
  {
    match doc
    case None => Rejected(NullDocument)
    case Some(d) =>
      if !d.scenes.Items? then Rejected(NoScenesArray)
      else if !d.endings.Items? then Rejected(NoEndingsArray)
      else if !d.rewards.Items? then Rejected(NoRewardsArray)
      else if StartScene(d.scenes.items).None? then Rejected(NoStartScene)
      else Accepted(DocumentWarnings(d.scenes.items, d.endings.items))
  }

  /** A document with three arrays is accepted exactly when some scene is a
      start, whatever its choices point at. */
  lemma AcceptedIffStartExists(d: Doc)
    requires d.scenes.Items? && d.endings.Items? && d.rewards.Items?
    ensures Validate(Some(d)).Accepted? <==> exists j :: 0 <= j < |d.scenes.items| && d.scenes.items[j].isStart
  {
    var v := Validate(Some(d));
    if !v.Accepted? {
      assert v == Rejected(NoStartScene);
    }
  }

  /** The warning list holds exactly the dangling references: `w` is logged
      if and only if some scene with `w`'s id has, at `w`'s choice index, a
      choice whose target is not defined in the document. */
  ghost predicate Flags(scenes: seq<Scene>, endings: seq<Ending>, w: Warning)
  {
    exists k :: 0 <= k < |scenes| && scenes[k].id == w.sceneId && scenes[k].choices.Some?
      && w.index < |scenes[k].choices.value|
      && Dangles(scenes[k].choices.value[w.index], w, SceneIds(scenes), EndingIds(endings))
  }

  lemma ChoiceWarningsMembership(sceneId: string, index: nat, c: Choice, sIds: set<string>, eIds: set<string>, w: Warning)
    ensures w in ChoiceWarnings(sceneId, index, c, sIds, eIds) <==>
      w.sceneId == sceneId && w.index == index && Dangles(c, w, sIds, eIds)
  {
  }

  lemma {:induction false} SceneWarningsMembership(sc: Scene, sIds: set<string>, eIds: set<string>, w: Warning)
    ensures w in SceneWarnings(sc, sIds, eIds) <==>
      sc.choices.Some? && w.sceneId == sc.id && w.index < |sc.choices.value|
      && Dangles(sc.choices.value[w.index], w, sIds, eIds)
  {
    match sc.choices
    case None =>
    case Some(cs) =>
      var parts := seq(|cs|, i requires 0 <= i < |cs| => ChoiceWarnings(sc.id, i, cs[i], sIds, eIds));
      ConcatMembership(parts, w);
      if w in SceneWarnings(sc, sIds, eIds) {
        var i :| 0 <= i < |parts| && w in parts[i];
        ChoiceWarningsMembership(sc.id, i, cs[i], sIds, eIds, w);
      }
      if w.sceneId == sc.id && w.index < |cs| && Dangles(cs[w.index], w, sIds, eIds) {
        ChoiceWarningsMembership(sc.id, w.index, cs[w.index], sIds, eIds, w);
        assert w in parts[w.index];
      }
  }

  lemma {:induction false} WarningsAreExactlyDanglingReferences(scenes: seq<Scene>, endings: seq<Ending>, w: Warning)
    ensures w in DocumentWarnings(scenes, endings) <==> Flags(scenes, endings, w)
  {
    var sIds := SceneIds(scenes);
    var eIds := EndingIds(endings);
    var parts := seq(|scenes|, k requires 0 <= k < |scenes| => SceneWarnings(scenes[k], sIds, eIds));
    ConcatMembership(parts, w);
    if w in DocumentWarnings(scenes, endings) {
      var k :| 0 <= k < |parts| && w in parts[k];
      SceneWarningsMembership(scenes[k], sIds, eIds, w);
    }
    if Flags(scenes, endings, w) {
      var k :| 0 <= k < |scenes| && scenes[k].id == w.sceneId && scenes[k].choices.Some?
        && w.index < |scenes[k].choices.value|
        && Dangles(scenes[k].choices.value[w.index], w, sIds, eIds);
      SceneWarningsMembership(scenes[k], sIds, eIds, w);
      assert w in parts[k];
    }
  }
}

=== FILE: wire.dfy ===
/** The choice report on the wire: the JSON body the client posts to
    `/api/story/choice` and what the server records from it. */
module Wire {
  import opened Basics
  import opened Js
  import opened Story
  import opened Navigation
  import opened Router

  /** `JSON.stringify` of the report; an undefined `nextSceneId` is dropped. */
  function ReportBody(rep: ChoiceReport): JsValue
  {
    var fields := map["sessionId" := Str(rep.sessionId), "sceneId" := Str(rep.sceneId),
                      "choiceText" := Str(rep.choiceText), "choiceOrder" := Num(rep.choiceOrder)];
    match rep.nextSceneId
    case None => Obj(fields)
    case Some(id) => Obj(fields["nextSceneId" := Str(id)])
  }

  /** The server records exactly what the client reported: the client's
      counter is at least 1 whenever it sends a report, so the server's
      fallback to 1 never replaces it, and a choice with no target is
      recorded with an undefined next scene. */
  lemma ReportRecordedAsSent(s: NavState, c: Choice, w: World)
    requires TrackChoice(s, c).1.Some?
    requires w.db.DbDone?
    ensures var rep := TrackChoice(s, c).1.value;
            var o := Serve(Request("POST", "/api/story/choice", map[], Parsed(ReportBody(rep))), w);
            o == Answered(HandlerSuccess("Choice recorded successfully"),
                          SaveChoice(Str(rep.sessionId), Str(rep.sceneId), Str(rep.choiceText),
                                     match rep.nextSceneId case None => Undefined case Some(id) => Str(id),
                                     Num(rep.choiceOrder)))
  {
    var rep := TrackChoice(s, c).1.value;
    assert rep.choiceOrder >= 1;
    assert "/api/story/choice" in Routes.post;
  }
}
